=== FILE: README.md ===
# Driver–verifier exchange of the natural-deduction proof checker

The Python driver `llm_proof_driver.py` obtains a list of proof steps (from a
generation backend, or from a JSON document on standard input). It sends them,
with the premises and the conclusion, to the Java program
`integration.ProofVerifier` as a line-oriented request:

    CONCLUSION|<conclusion>
    PREMISE|<premise>           one per premise, in order
    STEP|<formula>||<rule>      one per step, in order

The verifier reads the request back (`readInputs`) and fills the proof table:
the premises first, with rule `Premise`, then the steps. It asks the
natural-deduction checker for a verdict, overrules a positive verdict when the
last step is not the conclusion (`concludes`, `normalize`), and prints one JSON
line: `{"valid":true}`, `{"valid":false}` or
`{"valid":false,"error":"<escaped message>"}`. The driver checks the process
reply in a fixed order (exit status, empty output, JSON parse). It exits with
status 0 exactly when the verdict's `valid` is present and truthy.

This project models both halves as pure Dafny functions over `seq<char>` and
proves the following:

- Encoding and then decoding a request is the identity exactly on the requests
  whose lines survive `readLine` and `trim` and whose formulas hold no `||` and
  do not end in `|`.
- Decoding succeeds and fails exactly as the line classification says.
- The JSON escaper's output is printable ASCII that a JSON reader decodes back
  to the message.
- End to end, for a request that survives the round trip, and with a JSON
  parser that reads the verifier's two verdict lines as the objects they
  spell, the driver's exit status is 0 exactly when the checker accepts the
  table and the proof ends with the conclusion.

The natural-deduction checker (`Proof.verifyProof`) is the parameter `verify`.
The verifier process, as seen by the driver, is the parameter `oracle`.
`json.loads` is the parameter `parse`.

Modules:

- `Text`: stripping parameterised by a whitespace predicate, join/split, and decimal rendering.
- `LineReader`: `BufferedReader.readLine`.
- `Protocol`: the records and the tags.
- `Verifier`: `readInputs`.
- `Evaluation`: `evaluate`, `concludes`, `normalize` and `main`.
- `MessageEscape`: `escape`.
- `Json`: JSON values, their Python truth value, and string unescaping as in RFC 8259, section 7.
- `Driver`: step construction, the request encoder, the reply checks and the exit status.
- `Prompt`: `build_user_prompt`.
- `Exchange`: the two halves composed.

## Model

In the table, "double bar" is the step separator `||` and "bar" is a single `|`.
| member | source | states |
|---|---|---|
| Verifier.IndexOfSeparator | src/integration/ProofVerifier.java:55 | `indexOf` of the double bar: none exactly when the payload holds no double bar; otherwise the position of the first one |
| Verifier.IsTrimmed | src/integration/ProofVerifier.java:43 | the characters `String.trim` removes: space, tab, line feed, carriage return and U+0000 are among them, every one lies below `!`, and U+0085 and U+00A0 are not among them |
| Verifier.Trim | src/integration/ProofVerifier.java:43 | `line.trim()`: a middle slice of the line with only characters ≤ U+0020 before and after it, empty exactly when the line is all such characters, and neither starting nor ending with one |
| Verifier.SplitStep | src/integration/ProofVerifier.java:51-63 | with a double bar, the payload is formula + double bar + rule, and the formula neither contains a double bar nor ends in a bar, so the split is at the first double bar and the rule may hold more; without one, the whole payload is the formula and the rule is empty |
| Verifier.Classify | src/integration/ProofVerifier.java:44-66 | a trimmed line is skipped exactly when it is empty or starts with `#`; tags are tried in the order CONCLUSION, PREMISE, STEP, and each payload is the text after its tag; a line is unrecognised exactly when it is non-empty, not a comment, and carries none of the three tags |
| Verifier.Absorb | src/integration/ProofVerifier.java:47-63 | the loop body for one recognised line: a conclusion line overwrites the conclusion, a premise or step line appends its payload or step at the end of its list, a skipped line changes nothing, and no other field changes |
| Verifier.UnrecognizedMessage | src/integration/ProofVerifier.java:65 | the message opens with "Unrecognized line: " and the rest of it is exactly the (trimmed) line |
| Verifier.ParseLines | src/integration/ProofVerifier.java:42-67 | the read loop over the lines; when it fails, the message starts with "Unrecognized line: " |
| Verifier.ReadInputs | src/integration/ProofVerifier.java:36-73 | `readInputs`: the only errors are "Missing conclusion" and an "Unrecognized line: " message |
| Verifier.ParseLinesSucceeds | src/integration/ProofVerifier.java:42-67 | the read loop completes exactly when every trimmed line is recognised |
| Verifier.ParseLinesError | src/integration/ProofVerifier.java:64-66 | a failing read loop reports "Unrecognized line: " followed by the first unrecognised line, trimmed |
| Verifier.ParseLinesSpec | src/integration/ProofVerifier.java:47-63 | a completed loop holds the payload of the last conclusion line, and every premise and step in input order, none dropped or merged |
| Verifier.ReadInputsSpec | src/integration/ProofVerifier.java:36-73 | `readInputs` returns exactly when every line is recognised and some line is a conclusion line; the result is the last conclusion plus the premises and steps in order; "Missing conclusion" is raised exactly when every line is recognised and there is no conclusion line |
| Verifier.SkippedLineIsIgnored | src/integration/ProofVerifier.java:43-46 | inserting a blank or `#` line anywhere does not change the outcome |
| Verifier.LaterConclusionWins | src/integration/ProofVerifier.java:47-48 | a later CONCLUSION line overwrites the conclusion and leaves the premises and steps alone |
| Verifier.ParsePremiseBlock | src/integration/ProofVerifier.java:49-50 | a run of PREMISE lines appends their payloads to the premises, in order |
| Verifier.ParseStepBlock | src/integration/ProofVerifier.java:51-63 | a run of STEP lines appends their steps to the steps, in order |
| Verifier.DecodedComponentsIntact | src/integration/ProofVerifier.java:42-71 | every component `readInputs` returns is free of line breaks, and the components that end a line do not end in a character ≤ U+0020 |
| LineReader.ReadLines | src/integration/ProofVerifier.java:42 | the lines `readLine` returns hold no line break |
| LineReader.ReadTerminatedLines | src/integration/ProofVerifier.java:42 | reading back text in which every break-free line ends in `\n` (or `\r\n`) gives exactly those lines |
| Evaluation.PremiseRows | src/integration/ProofVerifier.java:84-95 | the first loop puts premise k at row k + 1 with rule "Premise" |
| Evaluation.AppendStepRows | src/integration/ProofVerifier.java:96-106 | the second loop keeps the rows already there and puts step j at the next row number with its own formula and rule |
| Evaluation.FillRows | src/integration/ProofVerifier.java:84-106 | the two loops together build the table: #premises + #steps rows, the premises first |
| Evaluation.RepeatedPremisesAppearTwice | src/integration/ProofVerifier.java:84-106 | when the steps repeat the premises first, each premise appears in the table twice, at row k + 1 and at row #premises + k + 1 |
| Evaluation.IsJavaWhitespace | src/integration/ProofVerifier.java:129 | `Character.isWhitespace`, the test `String.strip` uses: space, tab, line feed and carriage return hold, the no-break spaces U+00A0, U+2007, U+202F and U+0085 do not, and every whitespace character lies in U+0009–U+3000 |
| Evaluation.Normalize | src/integration/ProofVerifier.java:128-130 | a missing formula normalises to ""; any other becomes the formula with its leading and trailing `Character.isWhitespace` runs removed: a middle slice with only whitespace around it, no whitespace at either end, and "" exactly for a formula made only of whitespace |
| Evaluation.NormalizeIdempotent | src/integration/ProofVerifier.java:128-130 | normalising twice is normalising once |
| Evaluation.Concludes | src/integration/ProofVerifier.java:119-126 | false when there are no steps; true when the last step's formula is the conclusion |
| Evaluation.ConcludesExactly | src/integration/ProofVerifier.java:119-130 | when the conclusion and the last formula have no whitespace at either end, `concludes` holds exactly when there is a last step and its formula equals the conclusion |
| Evaluation.ConcludesIgnoresPadding | src/integration/ProofVerifier.java:125-129 | whitespace around the conclusion does not change `concludes` |
| Evaluation.LastStepIgnoresPadding | src/integration/ProofVerifier.java:124-129 | whitespace around the last step's formula does not change `concludes` |
| Evaluation.Evaluate | src/integration/ProofVerifier.java:107-116 | the verdict is true exactly when the checker accepts the table and the conclusion, and the proof concludes; so a true verdict implies `concludes` |
| Evaluation.VerdictLine | src/integration/ProofVerifier.java:26 | a one-line JSON object opening with `{"valid":`, whose next character is `t` exactly for a true verdict, closing with `}` and holding no line break |
| Evaluation.ErrorLine | src/integration/ProofVerifier.java:32 | the fixed opening `{"valid":false,"error":"`, then exactly the escaped message, then `"}`; no line break anywhere |
| Evaluation.Respond | src/integration/ProofVerifier.java:23-33 | given what `readInputs` returned, the output is exactly one line starting with `{`: `{"valid":true}` exactly when the inputs were read and evaluated true, `{"valid":false}` for the other inputs that were read, and the error line with the escaped message when reading failed |
| Evaluation.VerifierMain | src/integration/ProofVerifier.java:22-34 | the whole standard output is exactly one line (a line break at its end and nowhere else); `{"valid":true}` exactly for inputs that were read, pass the checker and conclude; `{"valid":false}` for inputs that were read and rejected; the error line with the escaped message when reading failed |
| MessageEscape.EscapeUnit | src/integration/ProofVerifier.java:135-141 | one code unit becomes 1 to 6 printable ASCII characters; a unit outside 0x20–0x7E becomes `\u` plus four lower-case hexadecimal digits that denote it |
| MessageEscape.CodeUnits | src/integration/ProofVerifier.java:134 | `message.toCharArray()`: the UTF-16 code units, each below 0x10000, between one and two per character |
| MessageEscape.Hex4 | src/integration/ProofVerifier.java:140 | `String.format("%04x", u)`: four characters |
| MessageEscape.Hex4Denotes | src/integration/ProofVerifier.java:140 | the four characters are lower-case hexadecimal digits that a JSON reader reads back as `u` |
| MessageEscape.EscapeUnitCases | src/integration/ProofVerifier.java:135-138 | `"` and `\` are preceded by a backslash; any other printable character is copied |
| MessageEscape.EscapeUnits | src/integration/ProofVerifier.java:134-143 | the loop over the code units gives printable ASCII, at least one and at most six characters per unit; EscapeUnitsAppend states that it works unit by unit |
| MessageEscape.Escape | src/integration/ProofVerifier.java:132-144 | the output is printable ASCII, with at least one and at most six characters per UTF-16 code unit of the message |
| MessageEscape.UnescapeUnit | src/integration/ProofVerifier.java:135-141 | a JSON reader decodes the escape of a non-surrogate code unit to its character |
| MessageEscape.UnescapeSurrogatePair | src/integration/ProofVerifier.java:134-141 | a JSON reader decodes the two `\u` escapes of a supplementary character's surrogate pair back to that character |
| MessageEscape.UnescapeEscape | src/integration/ProofVerifier.java:132-144 | JSON string unescaping recovers the message from its escape |
| Driver.BuildSteps | src/integration/llm_proof_driver.py:147 | one step per `proof_steps` item, in order, with the item's formula; a missing `rule` becomes ""; the construction fails with a `KeyError` on "formula" exactly when some item lacks a formula |
| Driver.DictGet | src/integration/llm_proof_driver.py:196-197 | `dict.get`: the stored value when the key is present, the default otherwise |
| Driver.StepsFromPayload | src/integration/llm_proof_driver.py:123 | a payload without `proof_steps` fails with a `KeyError` on "proof_steps"; otherwise it succeeds exactly when every item has a formula, fails with a `KeyError` on "formula" when one lacks it, and on success step i is item i's formula with its `rule` or "" |
| Driver.EncodeConclusion | src/integration/llm_proof_driver.py:151 | the line starts with the CONCLUSION tag and is as long as tag and conclusion together; `Exchange.ConclusionLineKind` decodes it back |
| Driver.EncodePremise | src/integration/llm_proof_driver.py:153 | the line starts with the PREMISE tag and is as long as tag and premise together; `Exchange.PremiseLineKind` decodes it back |
| Driver.EncodeStep | src/integration/llm_proof_driver.py:155 | the line starts with the STEP tag and is as long as tag, formula, double bar and rule together; `Exchange.StepLineKind` decodes it |
| Driver.EncodedPayloads | src/integration/llm_proof_driver.py:151-155 | after its tag, each encoded line holds exactly its payload: the conclusion, the premise, or formula, double bar and rule, whatever characters they end in |
| Driver.PremiseLines | src/integration/llm_proof_driver.py:152-153 | one PREMISE line per premise, in order |
| Driver.StepLines | src/integration/llm_proof_driver.py:154-155 | one STEP line per step, in order |
| Driver.RequestLines | src/integration/llm_proof_driver.py:151-155 | 1 + #premises + #steps lines: the CONCLUSION line, then one PREMISE line per premise in order, then one STEP line per step in order |
| Driver.EncodeRequest | src/integration/llm_proof_driver.py:156 | the payload is every line terminated by `\n`; it starts with the conclusion tag, so never with `\n`, and ends with `\n` |
| Driver.CheckReply | src/integration/llm_proof_driver.py:169-180 | a non-zero exit status is an execution error whatever the output, and only a non-zero status gives that error; with status 0, output that strips to nothing is the distinct "no output" error, and only then; otherwise the stripped output goes to the parser, whose value is the verdict when it accepts and whose refusal is a protocol error carrying the stripped output; a verdict comes from no other path |
| Driver.IsPythonSpace | src/integration/llm_proof_driver.py:174 | `str.isspace`, the test `str.strip` uses: space, tab, line feed, carriage return, U+0085 and the no-break spaces U+00A0, U+2007, U+202F hold, and every such character lies in U+0009–U+3000 |
| Driver.PyStrip | src/integration/llm_proof_driver.py:171-174 | `str.strip()`: a middle slice of the text with only `isspace` characters before and after it, empty exactly when the text is all whitespace, and neither starting nor ending with whitespace, so trailing whitespace is removed as well as leading |
| Driver.ExitStatusPrecedesOutput | src/integration/llm_proof_driver.py:169-172 | with a non-zero exit status, neither the standard output nor the parser affects the result |
| Driver.EmptyOutputIsNeverAVerdict | src/integration/llm_proof_driver.py:174-176 | output made only of whitespace is never turned into a verdict, whatever the parser |
| Driver.PaddingAroundOutputIsIgnored | src/integration/llm_proof_driver.py:174 | whitespace around the verifier's output does not change how the reply is read |
| Driver.Report | src/integration/llm_proof_driver.py:195-201 | exit status 0 exactly when the verdict is an object whose `valid` is present and truthy; otherwise 1, and a checker error is reported only when it is truthy |
| Json.Truthy | src/integration/llm_proof_driver.py:196-198 | Python's truth value of a parsed JSON value: a value is false exactly when it is null, false, zero, or the empty string, list or object |
| Driver.BooleanVerdicts | src/integration/llm_proof_driver.py:196-200 | for a boolean `valid` the status is 0 exactly when it is true; an absent `valid` gives 1; a false verdict with a non-empty error reports that error |
| Driver.Drive | src/integration/llm_proof_driver.py:183-201 | the exit status is 0 or 1; when the steps cannot be obtained the run exits with 1 before the verifier is started; otherwise it exits with 0 exactly when the checked reply is an object whose `valid` is present and truthy, which needs a reply with status 0 that parses |
| Prompt.NumberedPremises | src/integration/llm_proof_driver.py:131-132 | one line per premise, in order, numbered from the start value upwards |
| Prompt.NumberedLine | src/integration/llm_proof_driver.py:132 | the line opens with two spaces, ends with ". " and the premise, and is four characters longer than the index digits and the premise; NumberedLineDenotes states that the digits denote the index |
| Text.Decimal | src/integration/llm_proof_driver.py:132 | `str(idx)` inside the f-string: a non-empty run of decimal digits with no leading zero except for 0 itself; DecimalRoundTrip states that the digits denote the number |
| Text.DecimalRoundTrip | src/integration/llm_proof_driver.py:132 | the digits `str` writes for a number denote that number |
| Prompt.PromptLines | src/integration/llm_proof_driver.py:127-140 | the instruction line; then "Premises:" and `"  i. p_i"` for i = 1..n when n > 0, or the single "No premises (empty context)." line; then the conclusion line, an empty line and the two closing instructions: n + 6 lines when n > 0, 6 when n = 0 |
| Prompt.BuildUserPrompt | src/integration/llm_proof_driver.py:127-141 | `"\n".join(lines)`: the prompt opens with the instruction line and a line break and closes with a line break and the last instruction; `Prompt.PromptSplitsIntoLines` splits it back into its lines |
| Text.Join | src/integration/llm_proof_driver.py:141 | `sep.join(parts)`: empty for no parts, otherwise opening with the first part and closing with the last; SplitJoin splits it back into the parts |
| Prompt.PromptSplitsIntoLines | src/integration/llm_proof_driver.py:141 | when no premise and not the conclusion holds `\n`, splitting the prompt at `\n` gives back exactly those lines |
| Prompt.NumberedLineDenotes | src/integration/llm_proof_driver.py:132 | a numbered line is two spaces, the decimal digits of its number, ". " and the premise |
| Exchange.SplitStepRecovers | src/integration/ProofVerifier.java:55-62 | splitting the encoded payload of a step (f, r) gives back (f, r) exactly when f neither contains a double bar nor ends in a bar |
| Exchange.ConclusionLineKind | src/integration/ProofVerifier.java:43-48 | an encoded conclusion line whose conclusion does not end in a character ≤ U+0020 is read as that conclusion |
| Exchange.PremiseLineKind | src/integration/ProofVerifier.java:43-50 | an encoded premise line whose premise does not end in a character ≤ U+0020 is read as that premise |
| Exchange.StepLineKind | src/integration/ProofVerifier.java:43-63 | an encoded step line whose rule does not end in a character ≤ U+0020 is read as its payload split at the first double bar |
| Exchange.EncodedLinesAreRead | src/integration/llm_proof_driver.py:151-156 | when no component holds a line break (trailing spaces and control characters are allowed), `readLine` on the payload returns exactly the encoded lines |
| Exchange.EncodeThenRead | src/integration/ProofVerifier.java:42-71 | decoding an encoded request whose lines are intact gives back the conclusion and the premises unchanged, with each step re-split at the first double bar of its payload |
| Exchange.RoundTrip | src/integration/ProofVerifier.java:42-71 | decoding the encoder's output returns the same conclusion, premises and steps when no component holds a line break, no line ends in a character ≤ U+0020, and no formula contains a double bar or ends in a bar |
| Exchange.RoundTripNeedsTransmissible | src/integration/ProofVerifier.java:42-71 | each of those conditions is necessary: a request that comes back unchanged satisfies all of them |
| Exchange.RoundTripIff | src/integration/llm_proof_driver.py:151-156 | encoding followed by decoding is the identity exactly on the requests that satisfy those conditions |
| Exchange.SeparatorInFormulaMovesIntoRule | src/integration/ProofVerifier.java:55-58 | a step whose formula is P, double bar, Q and whose rule is R comes back with formula P and rule Q, double bar, R: the separator is not escaped |
| Exchange.ModusPonensRequest | src/integration/llm_proof_driver.py:151-155 | the request lines for modus ponens from "P → Q" and "P", with the premises repeated as the first steps |
| Exchange.VerdictChecked | src/integration/llm_proof_driver.py:174-178 | the driver reads the verifier's verdict line back as the object it spells |
| Exchange.JavaOracle | src/integration/ProofVerifier.java:22-34 | the verifier as the driver runs it exits with status 0 and prints exactly one line, which is never all whitespace, so the driver's exit-status and empty-output errors never arise from it |
| Exchange.WhitespaceNotions | src/integration/ProofVerifier.java:43 | what Java's `strip` removes Python's `strip` removes too, and in ASCII so does `trim`; a no-break space is stripped only by Python, and every control character below U+0009 only by `trim` |
| Exchange.EndToEnd | src/integration/llm_proof_driver.py:191-201 | for a request that survives the round trip, answered by the verifier, the driver exits with 0 exactly when the checker accepts the table and the last step is the conclusion |

## Left out

- The HTTP call to the generation backend (`call_llm`, llm_proof_driver.py:86-121): network I/O, environment variables and credentials. Its step construction (line 123) is modelled.
- Reading standard input in `load_steps_from_stdin`, and `json.loads`: the step construction takes the already-parsed payload. JSON values in step items are modelled as strings only.
- Character encodings on the standard-input channel: the exchange assumes a UTF-8 locale, so that, for strings without surrogates, the characters the driver writes (`subprocess.run(..., text=True)`, llm_proof_driver.py:161-167) are the characters the verifier reads as UTF-8 (ProofVerifier.java:37). Under another locale a character such as `→` may fail to encode or arrive changed; `Exchange.RoundTripIff` and `Exchange.EndToEnd` take standard input as character-exact. The reply is printable ASCII, so its decoding does not depend on the locale.
- Lone surrogates on the driver side: `json.loads` accepts an escape such as `"\ud800"` in a step's formula or rule (llm_proof_driver.py:123), and `subprocess.run(..., text=True)` then fails with `UnicodeEncodeError` while encoding standard input, even under UTF-8, so the driver ends with an exception instead of sending a request. Dafny strings hold Unicode scalar values only, so such a step cannot be expressed and this crash is not modelled.
- `subprocess.run` and starting the Java process: the reply is a (returncode, stdout, stderr) triple produced by the parameter `oracle`.
- JSON numbers are integers in the model: Python's `json.loads` also yields floats such as `0.0`, `1e0` and `NaN` (which is truthy). Only the verifier's booleans reach the exit-status decision from the verifier modelled here.
- The JSON parser of the driver: it is the parameter `parse`. The end-to-end lemma assumes it reads the verifier's two verdict lines as the objects they spell.
- `model.Proof` (`addRow`, `updateFormulaRow`, `updateRuleRow`, `updateConclusion`, `verifyProof`) is not part of this model. The table is a sequence of rows, and the verdict is the parameter `verify`.
- The exceptions `Proof` may raise while the table is filled or checked, and `IOException` from reading standard input: only the exceptions `readInputs` raises are modelled.
- The fallback to the exception's class name when its message is `null` (ProofVerifier.java:29-31): the modelled exceptions always carry a message.
- The redirection of `System.out` during `evaluate`, and the driver's printing (`print_table`, the JSON summary line, the stderr error line): only the exit status and the reported error value are modelled.
- `parse_args`, the `--dry-run` switch and the `temperature` pass-through: the steps enter `Driver.Drive` as a result.
- Lone surrogates in a Java `String`: Dafny characters are Unicode scalar values, so every message is well-formed UTF-16.
- A check that rejects separators, line breaks or padding in the components: the code has none, so those conditions are preconditions of the round-trip lemmas. A fail-fast encoder and a premise-mismatch error are described for the system but are not in the code; the model follows the code.
- The round-trip condition is weaker than "no leading or trailing whitespace", so the round-trip lemmas are stronger. The tag protects the start of every line, so only a character ≤ U+0020 at the end of a line (the conclusion, a premise, a step's rule) is lost to `trim`.
- MessageEscape.Escape: the length bound is stated per UTF-16 code unit, as Java's `length()` counts. A character outside the Basic Multilingual Plane takes two code units and up to twelve output characters.
- Driver.EncodeConclusion, Driver.EncodePremise, Driver.EncodeStep: their contracts give the tag and the length only, so that the encoders stay cheap in the many proofs that use them; the payload that follows the tag is stated, for every component, by `Driver.EncodedPayloads`, and the decode lemmas (`Exchange.ConclusionLineKind`, `Exchange.PremiseLineKind`, `Exchange.StepLineKind`) state how the verifier reads it for components that survive `trim`.

=== FILE: driver.dfy ===
/**
 The Python driver `llm_proof_driver.py` around its exchange with the
 verifier: building proof steps from the generator's parsed payload,
 encoding the request, checking the verifier process's reply in the order
 the driver does, and turning the verdict into the exit status.
 The verifier process is the parameter `oracle` and `json.loads` is `parse`.
 */
module Driver {
  import opened Wrappers
  import opened Text
  import opened Protocol
  import opened Json

  /** The errors the driver raises (as `KeyError` or `RuntimeError`) on the paths modelled here. */
  datatype DriverError =
    | MissingKey(key: String)
    | VerifierExecutionError(code: int, diagnostics: String)
    | EmptyOracleOutput
    | OracleProtocolError(output: String)

  /** Python's `d.get(key, default)`. */
  function DictGet<V>(d: map<String, V>, key: String, default: V): (v: V)
    ensures key in d ==> v == d[key]
    ensures key !in d ==> v == default
  {
    if key in d then d[key] else default
  }

  /**
   The list comprehension building `ProofStep`s from the `proof_steps` items:
   one step per item in order, a missing `rule` read as "", and a missing
   `formula` raising `KeyError` at the first item that lacks it.
   */
  function BuildSteps(items: seq<map<String, String>>): (r: Result<seq<ProofStep>, DriverError>)
    ensures r.Ok? <==> forall i :: 0 <= i < |items| ==> "formula" in items[i]
    ensures r.Err? ==> r.error == MissingKey("formula")
    ensures r.Ok? ==> |r.value| == |items|
    ensures r.Ok? ==> forall i :: 0 <= i < |items| ==>
      r.value[i].formula == items[i]["formula"]
      && r.value[i].rule == (if "rule" in items[i] then items[i]["rule"] else "")
  {
    if |items| == 0 then Ok([])
    else if "formula" !in items[0] then Err(MissingKey("formula"))
    else
      var step := ProofStep(items[0]["formula"], DictGet(items[0], "rule", ""));
      match BuildSteps(items[1..])
      case Err(e) => Err(e)
      case Ok(rest) => Ok([step] + rest)
  }

  /** `parsed["proof_steps"]` followed by the step construction. */
  function StepsFromPayload(parsed: map<String, seq<map<String, String>>>): (r: Result<seq<ProofStep>, DriverError>)
    ensures "proof_steps" !in parsed ==> r == Err(MissingKey("proof_steps"))
    ensures r.Ok? ==> "proof_steps" in parsed && |r.value| == |parsed["proof_steps"]|
    ensures "proof_steps" in parsed ==>
      var items := parsed["proof_steps"];
      && (r.Ok? <==> forall i :: 0 <= i < |items| ==> "formula" in items[i])
      && (r.Err? ==> r.error == MissingKey("formula"))
      && (r.Ok? ==> forall i :: 0 <= i < |items| ==>
            r.value[i] == ProofStep(items[i]["formula"], DictGet(items[i], "rule", "")))
  {
    if "proof_steps" !in parsed then Err(MissingKey("proof_steps")) else BuildSteps(parsed["proof_steps"])
  }

  /** `f"CONCLUSION|{conclusion}"`. */
  function EncodeConclusion(conclusion: String): (line: String)
    ensures ConclusionTag <= line && |line| == |ConclusionTag| + |conclusion|
  {
    ConclusionTag + conclusion
  }

  /** `f"PREMISE|{premise}"`. */
  function EncodePremise(premise: String): (line: String)
    ensures PremiseTag <= line && |line| == |PremiseTag| + |premise|
  {
    PremiseTag + premise
  }

  /** `f"STEP|{step.formula}||{step.rule}"`. */
  function EncodeStep(step: ProofStep): (line: String)
    ensures StepTag <= line && |line| == |StepTag| + |step.formula| + |FieldSeparator| + |step.rule|
  {
    StepTag + step.formula + FieldSeparator + step.rule
  }

  /** Each encoded line is its tag followed by exactly its payload. */
  lemma EncodedPayloads(c: String, p: String, s: ProofStep)
    ensures EncodeConclusion(c)[|ConclusionTag|..] == c
    ensures EncodePremise(p)[|PremiseTag|..] == p
    ensures EncodeStep(s)[|StepTag|..] == s.formula + FieldSeparator + s.rule
  {
    assert EncodeStep(s) == StepTag + (s.formula + FieldSeparator + s.rule);
  }

  /** The `PREMISE|` lines, one per premise in order. */
  function PremiseLines(premises: seq<String>): (lines: seq<String>)
    ensures |lines| == |premises|
    ensures forall k :: 0 <= k < |premises| ==> lines[k] == EncodePremise(premises[k])
  {
    if |premises| == 0 then [] else [EncodePremise(premises[0])] + PremiseLines(premises[1..])
  }

  /** The `STEP|` lines, one per step in order. */
  function StepLines(steps: seq<ProofStep>): (lines: seq<String>)
    ensures |lines| == |steps|
    ensures forall j :: 0 <= j < |steps| ==> lines[j] == EncodeStep(steps[j])
  {
    if |steps| == 0 then [] else [EncodeStep(steps[0])] + StepLines(steps[1..])
  }

  /** `payload_lines`: the conclusion line, then the premise lines, then the step lines. */
  function RequestLines(premises: seq<String>, conclusion: String, steps: seq<ProofStep>): (lines: seq<String>)
    ensures |lines| == 1 + |premises| + |steps|
    ensures lines[0] == EncodeConclusion(conclusion)
    ensures forall k :: 0 <= k < |premises| ==> lines[1 + k] == EncodePremise(premises[k])
    ensures forall j :: 0 <= j < |steps| ==> lines[1 + |premises| + j] == EncodeStep(steps[j])
  {
    [EncodeConclusion(conclusion)] + PremiseLines(premises) + StepLines(steps)
  }

  /**
   `payload`: the lines joined by `\n` plus a final `\n`, so every line is
   terminated and the payload starts with the conclusion line.
   */
  function EncodeRequest(premises: seq<String>, conclusion: String, steps: seq<ProofStep>): (payload: String)
    ensures payload == Terminated(RequestLines(premises, conclusion, steps), "\n")
    ensures StartsWith(payload, ConclusionTag) && payload[0] != '\n'
    ensures payload[|payload| - 1] == '\n'
  {
    var lines := RequestLines(premises, conclusion, steps);
    JoinedPayload(lines);
    Join(lines, "\n") + "\n"
  }

  /** Lines that open with a conclusion line, joined and terminated. */
  lemma JoinedPayload(lines: seq<String>)
    requires |lines| > 0 && ConclusionTag <= lines[0]
    ensures var payload := Join(lines, "\n") + "\n";
      && payload == Terminated(lines, "\n")
      && StartsWith(payload, ConclusionTag) && payload[0] != '\n'
      && payload[|payload| - 1] == '\n'
  {
    JoinThenTerminate(lines, "\n");
    var joined := Join(lines, "\n");
    var payload := joined + "\n";
    assert payload[..|ConclusionTag|] == joined[..|ConclusionTag|] == lines[0][..|ConclusionTag|];
  }

  /** What `subprocess.run` hands back: exit status and the two captured streams. */
  datatype ProcessReply = ProcessReply(returncode: int, stdout: String, stderr: String)

  /** `str.isspace`, the test behind Python's `str.strip()`. */
  predicate IsPythonSpace(c: char)
    ensures c == ' ' || c == '\t' || c == '\n' || c == '\r' ==> IsPythonSpace(c)
    ensures c == '\U{0085}' || c == '\U{00A0}' || c == '\U{2007}' || c == '\U{202F}' ==> IsPythonSpace(c)
    ensures IsPythonSpace(c) ==> 0x09 <= c as int <= 0x3000
  {
    var v := c as int;
    || 0x09 <= v <= 0x0D || 0x1C <= v <= 0x20 || v == 0x85 || v == 0xA0
    || v == 0x1680 || 0x2000 <= v <= 0x200A || v == 0x2028 || v == 0x2029
    || v == 0x202F || v == 0x205F || v == 0x3000
  }

  /** `s.strip()`: `s` without its leading and trailing runs of `str.isspace` characters. */
  function PyStrip(s: String): (r: String)
    ensures IsStripOf(r, s, IsPythonSpace)
  {
    StripFacts(s, IsPythonSpace);
    Strip(s, IsPythonSpace)
  }

  /**
   The checks `call_proof_checker` applies to the reply: a non-zero exit
   status is an error whatever the output says; output that is all
   whitespace is a distinct error and never reaches the parser; output the
   parser rejects is a third error; otherwise the parsed verdict.
   */
  function CheckReply(reply: ProcessReply, parse: String -> Option<Json>): (r: Result<Json, DriverError>)
    ensures reply.returncode != 0 ==> r == Err(VerifierExecutionError(reply.returncode, PyStrip(reply.stderr)))
    ensures reply.returncode == 0 && All(reply.stdout, IsPythonSpace) ==> r == Err(EmptyOracleOutput)
    ensures r == Err(EmptyOracleOutput) ==> reply.returncode == 0 && All(reply.stdout, IsPythonSpace)
    ensures r.Ok? ==>
      reply.returncode == 0 && !All(reply.stdout, IsPythonSpace) && parse(PyStrip(reply.stdout)) == Some(r.value)
    ensures r.Err? && r.error.OracleProtocolError? ==>
      reply.returncode == 0 && r.error.output != [] && r.error.output == PyStrip(reply.stdout)
      && parse(r.error.output) == None
    ensures reply.returncode == 0 && !All(reply.stdout, IsPythonSpace) && parse(PyStrip(reply.stdout)).Some? ==>
      r == Ok(parse(PyStrip(reply.stdout)).value)
    ensures reply.returncode == 0 && !All(reply.stdout, IsPythonSpace) && parse(PyStrip(reply.stdout)).None? ==>
      r == Err(OracleProtocolError(PyStrip(reply.stdout)))
    ensures r.Err? && r.error.VerifierExecutionError? ==> reply.returncode != 0
  {
    if reply.returncode != 0 then Err(VerifierExecutionError(reply.returncode, PyStrip(reply.stderr)))
    else
      var output := PyStrip(reply.stdout);
      if |output| == 0 then Err(EmptyOracleOutput)
      else
        match parse(output)
        case None => Err(OracleProtocolError(output))
        case Some(v) => Ok(v)
  }

  /** The exit status takes precedence: with a non-zero status the output is never looked at. */
  lemma ExitStatusPrecedesOutput(reply: ProcessReply, otherStdout: String, parse: String -> Option<Json>, parse': String -> Option<Json>)
    requires reply.returncode != 0
    ensures CheckReply(reply, parse) == CheckReply(reply.(stdout := otherStdout), parse')
    ensures CheckReply(reply, parse).Err? && CheckReply(reply, parse).error.VerifierExecutionError?
  {
  }

  /** No parser can turn whitespace-only output into a verdict. */
  lemma EmptyOutputIsNeverAVerdict(reply: ProcessReply, parse: String -> Option<Json>)
    requires All(reply.stdout, IsPythonSpace)
    ensures CheckReply(reply, parse).Err?
  {
  }

  /** Whitespace around the verifier's output does not change how the reply is read. */
  lemma PaddingAroundOutputIsIgnored(reply: ProcessReply, pre: String, post: String, parse: String -> Option<Json>)
    requires All(pre, IsPythonSpace) && All(post, IsPythonSpace)
    ensures CheckReply(reply.(stdout := pre + reply.stdout + post), parse) == CheckReply(reply, parse)
  {
    StripAbsorbsPadding(pre, reply.stdout, post, IsPythonSpace);
  }

  /** What the driver's run ends with: its exit status and the checker error it prints, if any. */
  datatype Outcome = Outcome(exitCode: int, checkerError: Option<Json>)

  /**
   The end of `main`: status 0 exactly when the verdict is an object whose
   `valid` is truthy (absent counts as false); otherwise status 1, printing
   the verdict's `error` when it is truthy. A verdict that is not an object
   makes `.get` raise, which also ends the run with status 1.
   */
  function Report(checked: Result<Json, DriverError>): (o: Outcome)
    ensures o.exitCode == 0 || o.exitCode == 1
    ensures o.exitCode == 0 <==>
      checked.Ok? && checked.value.JObject? && "valid" in checked.value.fields && Truthy(checked.value.fields["valid"])
    ensures o.checkerError.Some? ==> o.exitCode == 1 && Truthy(o.checkerError.value)
  {
    match checked
    case Err(_) => Outcome(1, None)
    case Ok(verdict) =>
      if !verdict.JObject? then Outcome(1, None)
      else if !Truthy(DictGet(verdict.fields, "valid", JBool(false))) then
        var error := DictGet(verdict.fields, "error", JNull);
        Outcome(1, if Truthy(error) then Some(error) else None)
      else Outcome(0, None)
  }

  /** For the verdicts the verifier prints: status 0 exactly for `"valid": true`, and 1 when `valid` is absent. */
  lemma BooleanVerdicts(fields: map<String, Json>)
    ensures "valid" in fields && fields["valid"].JBool? ==>
      (Report(Ok(JObject(fields))).exitCode == 0 <==> fields["valid"].b)
    ensures "valid" !in fields ==> Report(Ok(JObject(fields))).exitCode == 1
    ensures "valid" in fields && fields["valid"] == JBool(false) && "error" in fields && fields["error"] != JString("") && fields["error"].JString? ==>
      Report(Ok(JObject(fields))).checkerError == Some(fields["error"])
  {
  }

  /**
   `main` after the steps are obtained: a failure to obtain them ends the run
   before the verifier is started; otherwise the request goes to the
   verifier and its reply is checked and reported.
   */
  function Drive(
    steps: Result<seq<ProofStep>, DriverError>, premises: seq<String>, conclusion: String,
    oracle: String -> ProcessReply, parse: String -> Option<Json>): (o: Outcome)
    ensures steps.Err? ==> o == Outcome(1, None)
    ensures o.exitCode == 0 ==>
      && steps.Ok?
      && oracle(EncodeRequest(premises, conclusion, steps.value)).returncode == 0
      && CheckReply(oracle(EncodeRequest(premises, conclusion, steps.value)), parse).Ok?
    ensures o.exitCode == 0 || o.exitCode == 1
    ensures o.exitCode == 0 <==>
      && steps.Ok?
      && var checked := CheckReply(oracle(EncodeRequest(premises, conclusion, steps.value)), parse);
      && checked.Ok? && checked.value.JObject?
      && "valid" in checked.value.fields && Truthy(checked.value.fields["valid"])
  {
    match steps
    case Err(_) => Outcome(1, None)
    case Ok(ss) => Report(CheckReply(oracle(EncodeRequest(premises, conclusion, ss)), parse))
  }
}

=== FILE: evaluation.dfy ===
/**
 `ProofVerifier.evaluate`, `concludes`, `normalize` and `main`: the verifier
 loads premises and steps into the proof table, asks the natural-deduction
 checker for a verdict, accepts only if the last step is the conclusion, and
 prints a one-line JSON verdict. The checker itself is the parameter `verify`.
 */
module Evaluation {
  import opened Wrappers
  import opened Text
  import opened Protocol
  import opened Verifier
  import MessageEscape

  /** One row of the proof table: its 1-based number, formula and rule. */
  datatype Row = Row(number: nat, formula: String, rule: String)

  /** The table the verifier fills: the premises first, each with rule "Premise", then the steps. */
  function Rows(inputs: Inputs): seq<Row>
  {
    var n := |inputs.premises|;
    seq(n + |inputs.steps|, i requires 0 <= i < n + |inputs.steps| =>
      if i < n then Row(i + 1, inputs.premises[i], "Premise")
      else Row(i + 1, inputs.steps[i - n].formula, inputs.steps[i - n].rule))
  }

  /** The first loop of `evaluate`: row `k + 1` holds premise `k` with rule "Premise". */
  method PremiseRows(premises: seq<String>) returns (rows: seq<Row>)
    ensures |rows| == |premises|
    ensures forall k :: 0 <= k < |premises| ==> rows[k] == Row(k + 1, premises[k], "Premise")
  {
    rows := [];
    var rowIndex := 0;
    while rowIndex < |premises|
      invariant rowIndex <= |premises| && |rows| == rowIndex
      invariant forall k :: 0 <= k < rowIndex ==> rows[k] == Row(k + 1, premises[k], "Premise")
    {
      rows := rows + [Row(rowIndex + 1, premises[rowIndex], "Premise")];
      rowIndex := rowIndex + 1;
    }
  }

  /**
   The second loop of `evaluate`: numbering continues after the rows already
   in the table, and each step keeps its own formula and rule.
   */
  method AppendStepRows(table: seq<Row>, steps: seq<ProofStep>) returns (rows: seq<Row>)
    ensures |rows| == |table| + |steps|
    ensures forall k :: 0 <= k < |table| ==> rows[k] == table[k]
    ensures forall j :: 0 <= j < |steps| ==>
      rows[|table| + j] == Row(|table| + j + 1, steps[j].formula, steps[j].rule)
  {
    rows := table;
    var s := 0;
    while s < |steps|
      invariant s <= |steps| && |rows| == |table| + s
      invariant forall k :: 0 <= k < |table| ==> rows[k] == table[k]
      invariant forall j :: 0 <= j < s ==>
        rows[|table| + j] == Row(|table| + j + 1, steps[j].formula, steps[j].rule)
    {
      var rowIndex := |rows|;
      rows := rows + [Row(rowIndex + 1, steps[s].formula, steps[s].rule)];
      s := s + 1;
    }
  }

  /** Both loops of `evaluate` together build the table. */
  method FillRows(inputs: Inputs) returns (rows: seq<Row>)
    ensures |rows| == |inputs.premises| + |inputs.steps|
    ensures rows == Rows(inputs)
  {
    var premiseRows := PremiseRows(inputs.premises);
    rows := AppendStepRows(premiseRows, inputs.steps);
    RowsAreTheTable(inputs, rows);
  }

  /** A sequence with the premise rows and then the step rows is the table. */
  lemma RowsAreTheTable(inputs: Inputs, rows: seq<Row>)
    requires |rows| == |inputs.premises| + |inputs.steps|
    requires forall k :: 0 <= k < |inputs.premises| ==> rows[k] == Row(k + 1, inputs.premises[k], "Premise")
    requires forall j :: 0 <= j < |inputs.steps| ==>
      rows[|inputs.premises| + j]
      == Row(|inputs.premises| + j + 1, inputs.steps[j].formula, inputs.steps[j].rule)
    ensures rows == Rows(inputs)
  {
    var n := |inputs.premises|;
    var table := Rows(inputs);
    forall i | 0 <= i < |rows| ensures rows[i] == table[i] {
      if i >= n { assert rows[n + (i - n)] == table[i]; }
    }
  }

  /**
   A step list that repeats the premises as its first lines, as the generator
   is told to produce, puts every premise in the table twice.
   */
  lemma RepeatedPremisesAppearTwice(inputs: Inputs)
    requires |inputs.premises| <= |inputs.steps|
    requires forall k :: 0 <= k < |inputs.premises| ==> inputs.steps[k] == ProofStep(inputs.premises[k], "Premise")
    ensures |Rows(inputs)| == |inputs.premises| + |inputs.steps|
    ensures forall k :: 0 <= k < |inputs.premises| ==>
      && Rows(inputs)[k] == Row(k + 1, inputs.premises[k], "Premise")
      && Rows(inputs)[|inputs.premises| + k] == Row(|inputs.premises| + k + 1, inputs.premises[k], "Premise")
  {
  }

  /** `Character.isWhitespace`, the test behind `String.strip`. */
  predicate IsJavaWhitespace(c: char)
    ensures c == ' ' || c == '\t' || c == '\n' || c == '\r' ==> IsJavaWhitespace(c)
    ensures IsJavaWhitespace(c) ==> c != '\U{0085}' && c != '\U{00A0}' && c != '\U{2007}' && c != '\U{202F}'
    ensures IsJavaWhitespace(c) ==> 0x09 <= c as int <= 0x3000
  {
    var v := c as int;
    || 0x09 <= v <= 0x0D || 0x1C <= v <= 0x20
    || v == 0x1680 || 0x2000 <= v <= 0x2006 || 0x2008 <= v <= 0x200A
    || v == 0x2028 || v == 0x2029 || v == 0x205F || v == 0x3000
  }

  /** `normalize`: a missing formula counts as empty, any other is stripped. */
  function Normalize(formula: Option<String>): (r: String)
    ensures formula.None? ==> r == []
    ensures formula.Some? ==> IsStripOf(r, formula.value, IsJavaWhitespace)
  {
    match formula
    case None => ""
    case Some(f) =>
      StripFacts(f, IsJavaWhitespace);
      Strip(f, IsJavaWhitespace)
  }

  /** Normalising twice is normalising once. */
  lemma NormalizeIdempotent(formula: Option<String>)
    ensures Normalize(Some(Normalize(formula))) == Normalize(formula)
  {
    var r := Normalize(formula);
    StripPadded([], r, [], IsJavaWhitespace);
    assert [] + r + [] == r;
  }

  /** `concludes`: there is a last step and, up to surrounding whitespace, it is the conclusion. */
  function Concludes(inputs: Inputs): (r: bool)
    ensures r ==> |inputs.steps| > 0
    ensures |inputs.steps| > 0 && inputs.steps[|inputs.steps| - 1].formula == inputs.conclusion ==> r
  {
    if |inputs.steps| == 0 then false
    else
      var last := inputs.steps[|inputs.steps| - 1];
      Normalize(Some(last.formula)) == Normalize(Some(inputs.conclusion))
  }

  /** Whitespace around the conclusion does not change whether the proof concludes it. */
  lemma ConcludesIgnoresPadding(inputs: Inputs, pre: String, post: String)
    requires All(pre, IsJavaWhitespace) && All(post, IsJavaWhitespace)
    ensures Concludes(inputs.(conclusion := pre + inputs.conclusion + post)) == Concludes(inputs)
  {
    StripAbsorbsPadding(pre, inputs.conclusion, post, IsJavaWhitespace);
  }

  /** Whitespace around the last step's formula does not change whether the proof concludes. */
  lemma LastStepIgnoresPadding(inputs: Inputs, pre: String, post: String)
    requires |inputs.steps| > 0
    requires All(pre, IsJavaWhitespace) && All(post, IsJavaWhitespace)
    ensures var n := |inputs.steps| - 1;
      var padded := inputs.steps[n].(formula := pre + inputs.steps[n].formula + post);
      Concludes(inputs.(steps := inputs.steps[n := padded])) == Concludes(inputs)
  {
    var n := |inputs.steps| - 1;
    var f := inputs.steps[n].formula;
    var padded := inputs.steps[n].(formula := pre + f + post);
    var steps := inputs.steps[n := padded];
    assert |steps| == n + 1 && steps[n].formula == pre + f + post;
    StripAbsorbsPadding(pre, f, post, IsJavaWhitespace);
    assert Normalize(Some(steps[n].formula)) == Normalize(Some(f));
  }

  /** A text with no whitespace at either end. */
  predicate Unpadded(s: String) {
    s != [] ==> !IsJavaWhitespace(s[0]) && !IsJavaWhitespace(s[|s| - 1])
  }

  /** Normalising an unpadded formula leaves it as it is. */
  lemma NormalizeUnpadded(s: String)
    requires Unpadded(s)
    ensures Normalize(Some(s)) == s
  {
    StripUnpadded(s, IsJavaWhitespace);
  }

  /**
   Between unpadded texts `concludes` is plain equality: the proof concludes
   exactly when it has a last step and that step's formula is the conclusion.
   */
  lemma ConcludesExactly(inputs: Inputs)
    requires Unpadded(inputs.conclusion)
    requires |inputs.steps| > 0 ==> Unpadded(inputs.steps[|inputs.steps| - 1].formula)
    ensures Concludes(inputs) <==>
      |inputs.steps| > 0 && inputs.steps[|inputs.steps| - 1].formula == inputs.conclusion
  {
    NormalizeUnpadded(inputs.conclusion);
    if |inputs.steps| > 0 {
      NormalizeUnpadded(inputs.steps[|inputs.steps| - 1].formula);
    }
  }

  /**
   `evaluate`: the checker's verdict on the table and conclusion, overruled
   to false when the proof does not end with the conclusion.
   */
  function Evaluate(inputs: Inputs, verify: (seq<Row>, String) -> bool): (valid: bool)
    ensures valid ==> Concludes(inputs)
    ensures valid <==> verify(Rows(inputs), inputs.conclusion) && Concludes(inputs)
  {
    var result := verify(Rows(inputs), inputs.conclusion);
    if result then Concludes(inputs) else false
  }

  /** The line `main` prints after a completed evaluation. */
  function VerdictLine(valid: bool): (line: String)
    ensures StartsWith(line, "{\"valid\":") && |line| > 10 && line[9] == if valid then 't' else 'f'
    ensures '\n' !in line && line[0] == '{' && line[|line| - 1] == '}'
  {
    assert '\n' !in "{\"valid\":";
    assert '\n' !in "true}" && '\n' !in "false}";
    "{\"valid\":" + (if valid then "true" else "false") + "}"
  }

  const ErrorOpening: String := "{\"valid\":false,\"error\":\""

  /** The line `main` prints when reading the inputs raised an exception with `message`. */
  function ErrorLine(message: String): (line: String)
    ensures |line| == |ErrorOpening| + |MessageEscape.Escape(message)| + 2
    ensures StartsWith(line, ErrorOpening) && EndsWith(line, "\"}")
    ensures line[|ErrorOpening|..|line| - 2] == MessageEscape.Escape(message)
    ensures '\n' !in line && line[0] == '{'
  {
    var body := MessageEscape.Escape(message);
    MessageEscape.EscapeHasNoBreak(message);
    assert '\n' !in ErrorOpening && '\n' !in "\"}";
    var line := ErrorOpening + body + "\"}";
    assert line[|ErrorOpening|..|line| - 2] == body;
    line
  }

  /** A text that is exactly one line: a line break at its end and nowhere else. */
  predicate IsOneLine(out: String) {
    |out| > 0 && out[|out| - 1] == '\n' && forall k :: 0 <= k < |out| - 1 ==> out[k] != '\n'
  }

  lemma TerminatedIsOneLine(line: String)
    requires '\n' !in line
    ensures IsOneLine(line + "\n")
  {
    var out := line + "\n";
    forall k | 0 <= k < |out| - 1 ensures out[k] != '\n' {
      assert out[k] == line[k];
    }
  }

  /**
   The `try`/`catch` of `main` given what `readInputs` returned: exactly one
   line, reporting `true` exactly when the inputs were read and the
   evaluation accepted them, `false` for the other inputs that were read, and
   the escaped error message otherwise.
   */
  function Respond(read: Result<Inputs, String>, verify: (seq<Row>, String) -> bool): (out: String)
    ensures IsOneLine(out) && out[0] == '{'
    ensures out == VerdictLine(true) + "\n" <==> read.Ok? && Evaluate(read.value, verify)
    ensures read.Ok? && !Evaluate(read.value, verify) ==> out == VerdictLine(false) + "\n"
    ensures read.Err? ==> out == ErrorLine(read.error) + "\n"
  {
    match read
    case Err(message) =>
      var line := ErrorLine(message);
      TerminatedIsOneLine(line);
      assert (line + "\n")[9] == 'f';
      assert (line + "\n")[0] == line[0];
      line + "\n"
    case Ok(inputs) =>
      var line := VerdictLine(Evaluate(inputs, verify));
      TerminatedIsOneLine(line);
      assert (line + "\n")[0] == line[0];
      line + "\n"
  }

  /**
   The verifier's whole standard output for a given standard input: exactly
   one line, which reports `true` exactly for inputs that were read and whose
   proof both passes the checker and ends with the conclusion.
   */
  function VerifierMain(stdin: String, verify: (seq<Row>, String) -> bool): (out: String)
    ensures IsOneLine(out) && out[0] == '{'
    ensures out == VerdictLine(true) + "\n" <==>
      ReadInputs(stdin).Ok? && Concludes(ReadInputs(stdin).value)
      && verify(Rows(ReadInputs(stdin).value), ReadInputs(stdin).value.conclusion)
    ensures ReadInputs(stdin).Ok? && !Evaluate(ReadInputs(stdin).value, verify) ==> out == VerdictLine(false) + "\n"
    ensures ReadInputs(stdin).Err? ==> out == ErrorLine(ReadInputs(stdin).error) + "\n"
  {
    Respond(ReadInputs(stdin), verify)
  }
}

=== FILE: exchange.dfy ===
/**
 The driver's request encoder and the verifier's decoder composed. Encoding
 and then decoding gives back the request exactly when every line survives
 the trip (no line breaks, nothing trimmable at the end of a line) and no step
 formula contains `||` or ends in `|`. Composed with the verifier's verdict
 and the driver's reply checks, the driver exits with 0 exactly when the
 checker accepts the table and the proof ends with the conclusion.
 */
module Exchange {
  import opened Wrappers
  import opened Text
  import opened Protocol
  import opened LineReader
  import opened Verifier
  import opened Evaluation
  import opened Json
  import opened Driver

  /** No component of the request holds a line break, so `readLine` splits no line. */
  predicate BreakFree(premises: seq<String>, conclusion: String, steps: seq<ProofStep>) {
    && NoBreaks(conclusion)
    && (forall k :: 0 <= k < |premises| ==> NoBreaks(premises[k]))
    && (forall j :: 0 <= j < |steps| ==> NoBreaks(steps[j].formula) && NoBreaks(steps[j].rule))
  }

  /** No line of the request is split by `readLine` or changed by `trim`. */
  predicate LinesIntact(premises: seq<String>, conclusion: String, steps: seq<ProofStep>) {
    && NoBreaks(conclusion) && SurvivesTrim(conclusion)
    && (forall k :: 0 <= k < |premises| ==> NoBreaks(premises[k]) && SurvivesTrim(premises[k]))
    && (forall j :: 0 <= j < |steps| ==>
          NoBreaks(steps[j].formula) && NoBreaks(steps[j].rule) && SurvivesTrim(steps[j].rule))
  }

  /** The request survives encoding and decoding unchanged. */
  predicate Transmissible(premises: seq<String>, conclusion: String, steps: seq<ProofStep>) {
    && LinesIntact(premises, conclusion, steps)
    && (forall j :: 0 <= j < |steps| ==> !ContainsSeparator(steps[j].formula) && !EndsWithBar(steps[j].formula))
  }

  /** The steps the verifier reads back from intact step lines: each payload re-split at its first `||`. */
  function Resplit(steps: seq<ProofStep>): seq<ProofStep> {
    seq(|steps|, j requires 0 <= j < |steps| => SplitStep(steps[j].formula + FieldSeparator + steps[j].rule))
  }

  /** Splitting at the first `||` recovers the formula exactly when the formula has no `||` and does not end in `|`. */
  lemma SplitStepRecovers(f: String, r: String)
    ensures SplitStep(f + FieldSeparator + r) == ProofStep(f, r) <==> !ContainsSeparator(f) && !EndsWithBar(f)
  {
    var payload := f + FieldSeparator + r;
    assert payload[|f|] == '|' && payload[|f| + 1] == '|';
    assert ContainsSeparator(payload);
    var s := SplitStep(payload);
    assert payload == s.formula + FieldSeparator + s.rule;
    if !ContainsSeparator(f) && !EndsWithBar(f) {
      assert forall k :: 0 <= k < |f| ==> payload[k] == f[k];
      assert forall k :: 0 <= k < |s.formula| ==> payload[k] == s.formula[k];
      assert payload[|s.formula|] == '|' && payload[|s.formula| + 1] == '|';
      assert |s.formula| == |f|;
      assert s.formula == f;
      assert s.rule == payload[|f| + 2..] == r;
    }
  }

  lemma NoBreaksConcat(a: String, b: String)
    requires NoBreaks(a) && NoBreaks(b)
    ensures NoBreaks(a + b)
  {
    assert forall k :: 0 <= k < |a + b| ==> (a + b)[k] == if k < |a| then a[k] else b[k - |a|];
  }

  lemma ConclusionLineKind(c: String)
    requires SurvivesTrim(c)
    ensures KindOf(EncodeConclusion(c)) == ConclusionLine(c)
  {
    var line := EncodeConclusion(c);
    TaggedLineTrimsToItself(ConclusionTag, c);
    assert StartsWith(line, ConclusionTag);
    assert line[0] == 'C';
    var kind := Classify(line);
    assert kind.ConclusionLine?;
    assert kind.conclusion == line[|ConclusionTag|..] == c;
  }

  lemma PremiseLineKind(p: String)
    requires SurvivesTrim(p)
    ensures KindOf(EncodePremise(p)) == PremiseLine(p)
  {
    var line := EncodePremise(p);
    TaggedLineTrimsToItself(PremiseTag, p);
    assert StartsWith(line, PremiseTag);
    assert line[0] == 'P';
    var kind := Classify(line);
    assert kind.PremiseLine?;
    assert kind.premise == line[|PremiseTag|..] == p;
  }

  lemma StepLineKind(s: ProofStep)
    requires SurvivesTrim(s.rule)
    ensures KindOf(EncodeStep(s)) == StepLine(SplitStep(s.formula + FieldSeparator + s.rule))
  {
    var payload := s.formula + FieldSeparator + s.rule;
    assert payload[|payload| - 1] == if |s.rule| == 0 then '|' else s.rule[|s.rule| - 1];
    assert EncodeStep(s) == StepTag + payload;
    StepPayloadKind(payload);
  }

  /** Any `STEP|` line whose payload survives `trim` is read as the split of that payload. */
  lemma StepPayloadKind(payload: String)
    requires SurvivesTrim(payload)
    ensures KindOf(StepTag + payload) == StepLine(SplitStep(payload))
  {
    var line := StepTag + payload;
    TaggedLineTrimsToItself(StepTag, payload);
    assert StartsWith(line, StepTag);
    assert line[0] == 'S';
    var kind := Classify(line);
    assert kind.StepLine?;
    assert line[|StepTag|..] == payload;
  }

  /** Every encoded premise line is read as that premise. */
  lemma {:induction false} PremiseLinesBlock(premises: seq<String>)
    requires forall k :: 0 <= k < |premises| ==> SurvivesTrim(premises[k])
    ensures PremiseBlock(PremiseLines(premises), premises)
  {
    if |premises| > 0 {
      var n := |premises| - 1;
      PremiseLinesPrefix(premises, n);
      PremiseLineKind(premises[n]);
      PremiseLinesBlock(premises[..n]);
    }
  }

  /** Every encoded step line is read as its payload re-split at the first `||`. */
  lemma {:induction false} StepLinesBlock(steps: seq<ProofStep>)
    requires forall j :: 0 <= j < |steps| ==> SurvivesTrim(steps[j].rule)
    ensures StepBlock(StepLines(steps), Resplit(steps))
  {
    if |steps| > 0 {
      var n := |steps| - 1;
      StepLinesPrefix(steps, n);
      ResplitPrefix(steps, n);
      StepLineKind(steps[n]);
      StepLinesBlock(steps[..n]);
    }
  }

  lemma PremiseLinesPrefix(premises: seq<String>, n: nat)
    requires n <= |premises|
    ensures PremiseLines(premises)[..n] == PremiseLines(premises[..n])
  {
    assert forall k :: 0 <= k < n ==> premises[..n][k] == premises[k];
  }

  lemma StepLinesPrefix(steps: seq<ProofStep>, n: nat)
    requires n <= |steps|
    ensures StepLines(steps)[..n] == StepLines(steps[..n])
  {
    assert forall j :: 0 <= j < n ==> steps[..n][j] == steps[j];
  }

  lemma ResplitPrefix(steps: seq<ProofStep>, n: nat)
    requires n <= |steps|
    ensures Resplit(steps)[..n] == Resplit(steps[..n])
  {
    assert forall j :: 0 <= j < n ==> steps[..n][j] == steps[j];
  }

  /** The encoded lines are exactly the lines `readLine` returns. */
  lemma EncodedLinesAreRead(premises: seq<String>, conclusion: String, steps: seq<ProofStep>)
    requires BreakFree(premises, conclusion, steps)
    ensures ReadLines(EncodeRequest(premises, conclusion, steps)) == RequestLines(premises, conclusion, steps)
  {
    var lines := RequestLines(premises, conclusion, steps);
    assert NoBreaks(ConclusionTag) && NoBreaks(PremiseTag) && NoBreaks(StepTag) && NoBreaks(FieldSeparator);
    forall k | 0 <= k < |lines| ensures NoBreaks(lines[k]) {
      if k == 0 {
        NoBreaksConcat(ConclusionTag, conclusion);
      } else if k <= |premises| {
        NoBreaksConcat(PremiseTag, premises[k - 1]);
      } else {
        var s := steps[k - 1 - |premises|];
        NoBreaksConcat(StepTag, s.formula);
        NoBreaksConcat(StepTag + s.formula, FieldSeparator);
        NoBreaksConcat(StepTag + s.formula + FieldSeparator, s.rule);
      }
    }
    ReadTerminatedLines(lines, "\n");
  }

  /**
   Decoding an encoded request whose lines are intact gives back the
   conclusion and the premises unchanged and each step re-split at the first
   `||` of its encoded payload.
   */
  lemma EncodeThenRead(premises: seq<String>, conclusion: String, steps: seq<ProofStep>)
    requires LinesIntact(premises, conclusion, steps)
    ensures ReadInputs(EncodeRequest(premises, conclusion, steps)) == Ok(Inputs(conclusion, premises, Resplit(steps)))
  {
    EncodedLinesAreRead(premises, conclusion, steps);
    RequestLinesParse(premises, conclusion, steps);
  }

  /** The decoder run over the request lines holds the conclusion, the premises and the re-split steps. */
  lemma RequestLinesParse(premises: seq<String>, conclusion: String, steps: seq<ProofStep>)
    requires LinesIntact(premises, conclusion, steps)
    ensures ParseLines(RequestLines(premises, conclusion, steps), Start) == Ok(Accum(Some(conclusion), premises, Resplit(steps)))
  {
    var head := [EncodeConclusion(conclusion)] + PremiseLines(premises);
    var ss := StepLines(steps);
    assert RequestLines(premises, conclusion, steps) == head + ss;
    ParseLinesAppend(head, ss, Start);
    HeadLinesParse(premises, conclusion);
    var afterPremises := Accum(Some(conclusion), premises, []);
    StepLinesBlock(steps);
    ParseStepBlock(ss, Resplit(steps), afterPremises);
    AppendEmpty(Resplit(steps));
  }

  /** The conclusion line and the premise lines leave the decoder with the conclusion and the premises. */
  lemma HeadLinesParse(premises: seq<String>, conclusion: String)
    requires SurvivesTrim(conclusion)
    requires forall k :: 0 <= k < |premises| ==> SurvivesTrim(premises[k])
    ensures ParseLines([EncodeConclusion(conclusion)] + PremiseLines(premises), Start) == Ok(Accum(Some(conclusion), premises, []))
  {
    var ps := PremiseLines(premises);
    ConsTail(EncodeConclusion(conclusion), ps);
    ConclusionLineKind(conclusion);
    ParseLinesCons([EncodeConclusion(conclusion)] + ps, Start);
    var afterHead := Accum(Some(conclusion), [], []);
    PremiseLinesBlock(premises);
    ParsePremiseBlock(ps, premises, afterHead);
    AppendEmpty(premises);
  }

  /** Round trip: a transmissible request is decoded to itself. */
  lemma RoundTrip(premises: seq<String>, conclusion: String, steps: seq<ProofStep>)
    requires Transmissible(premises, conclusion, steps)
    ensures ReadInputs(EncodeRequest(premises, conclusion, steps)) == Ok(Inputs(conclusion, premises, steps))
  {
    EncodeThenRead(premises, conclusion, steps);
    ResplitIdentity(steps);
  }

  /** Re-splitting leaves steps alone whose formulas hold no `||` and do not end in `|`. */
  lemma ResplitIdentity(steps: seq<ProofStep>)
    requires forall j :: 0 <= j < |steps| ==> !ContainsSeparator(steps[j].formula) && !EndsWithBar(steps[j].formula)
    ensures Resplit(steps) == steps
  {
    forall j | 0 <= j < |steps| ensures Resplit(steps)[j] == steps[j] {
      SplitStepRecovers(steps[j].formula, steps[j].rule);
    }
  }

  /** Only transmissible requests are decoded to themselves: each condition is needed. */
  lemma RoundTripNeedsTransmissible(premises: seq<String>, conclusion: String, steps: seq<ProofStep>)
    requires ReadInputs(EncodeRequest(premises, conclusion, steps)) == Ok(Inputs(conclusion, premises, steps))
    ensures Transmissible(premises, conclusion, steps)
  {
    DecodedComponentsIntact(EncodeRequest(premises, conclusion, steps));
    assert LinesIntact(premises, conclusion, steps);
    EncodeThenRead(premises, conclusion, steps);
    assert Resplit(steps) == steps;
    forall j | 0 <= j < |steps| ensures !ContainsSeparator(steps[j].formula) && !EndsWithBar(steps[j].formula) {
      assert Resplit(steps)[j] == steps[j];
      SplitStepRecovers(steps[j].formula, steps[j].rule);
    }
  }

  /** Encoding followed by decoding is the identity exactly on transmissible requests. */
  lemma RoundTripIff(premises: seq<String>, conclusion: String, steps: seq<ProofStep>)
    ensures ReadInputs(EncodeRequest(premises, conclusion, steps)) == Ok(Inputs(conclusion, premises, steps))
        <==> Transmissible(premises, conclusion, steps)
  {
    if Transmissible(premises, conclusion, steps) {
      RoundTrip(premises, conclusion, steps);
    }
    if ReadInputs(EncodeRequest(premises, conclusion, steps)) == Ok(Inputs(conclusion, premises, steps)) {
      RoundTripNeedsTransmissible(premises, conclusion, steps);
    }
  }

  /**
   The three notions of whitespace in the exchange: everything Java's `strip`
   removes, Python's `strip` removes too, and in ASCII so does `trim`; but a
   no-break space is stripped only by Python, and control characters below
   U+0009 are removed only by `trim`.
   */
  lemma WhitespaceNotions(c: char)
    ensures IsJavaWhitespace(c) ==> IsPythonSpace(c)
    ensures IsJavaWhitespace(c) && c as int < 0x80 ==> IsTrimmed(c)
    ensures IsPythonSpace('\U{00A0}') && !IsJavaWhitespace('\U{00A0}') && !IsTrimmed('\U{00A0}')
    ensures IsTrimmed('\U{0000}') && !IsJavaWhitespace('\U{0000}') && !IsPythonSpace('\U{0000}')
    ensures c as int < 0x09 ==> IsTrimmed(c) && !IsJavaWhitespace(c) && !IsPythonSpace(c)
  {
  }

  /** The verifier process as the driver runs it: exit status 0, the verdict line on standard output. */
  function JavaOracle(verify: (seq<Row>, String) -> bool): (oracle: String -> ProcessReply)
    ensures forall stdin :: oracle(stdin).returncode == 0 && IsOneLine(oracle(stdin).stdout)
    ensures forall stdin :: !All(oracle(stdin).stdout, IsPythonSpace)
  {
    VerifierOutputNotBlank(verify);
    (stdin: String) => ProcessReply(0, VerifierMain(stdin, verify), "")
  }

  /** The verifier's output opens with `{`, so Python never finds it blank. */
  lemma VerifierOutputNotBlank(verify: (seq<Row>, String) -> bool)
    ensures forall stdin :: !All(VerifierMain(stdin, verify), IsPythonSpace)
  {
    forall stdin ensures !All(VerifierMain(stdin, verify), IsPythonSpace) {
      BraceIsNotBlank(VerifierMain(stdin, verify));
    }
  }

  lemma BraceIsNotBlank(out: String)
    requires |out| > 0 && out[0] == '{'
    ensures !All(out, IsPythonSpace)
  {
    assert !IsPythonSpace(out[0]);
  }

  /** Python strips the verdict line's terminator, leaving the JSON text. */
  lemma VerdictLineStripped(valid: bool)
    ensures PyStrip(VerdictLine(valid) + "\n") == VerdictLine(valid)
    ensures !All(VerdictLine(valid) + "\n", IsPythonSpace)
  {
    var v := VerdictLine(valid);
    assert v[0] == '{' && v[|v| - 1] == '}';
    StripPadded([], v, "\n", IsPythonSpace);
    assert [] + v + "\n" == v + "\n";
    assert (v + "\n")[0] == '{';
  }

  /**
   End to end: for a transmissible request answered by the verifier, and a
   JSON reader that reads the verifier's two verdict lines as the objects they
   spell, the driver exits with 0 exactly when the checker accepts the table
   and the last step is the conclusion.
   */
  lemma EndToEnd(
    premises: seq<String>, conclusion: String, steps: seq<ProofStep>,
    verify: (seq<Row>, String) -> bool, parse: String -> Option<Json>)
    requires Transmissible(premises, conclusion, steps)
    requires parse(VerdictLine(true)) == Some(JObject(map["valid" := JBool(true)]))
    requires parse(VerdictLine(false)) == Some(JObject(map["valid" := JBool(false)]))
    ensures var inputs := Inputs(conclusion, premises, steps);
      Drive(Ok(steps), premises, conclusion, JavaOracle(verify), parse).exitCode == 0
      <==> verify(Rows(inputs), conclusion) && Concludes(inputs)
  {
    var inputs := Inputs(conclusion, premises, steps);
    var valid := Evaluate(inputs, verify);
    VerifierAnswers(premises, conclusion, steps, verify);
    VerdictChecked(valid, parse);
    VerdictReported(valid);
  }

  /** The verifier answers a transmissible request with the verdict on the request itself. */
  lemma VerifierAnswers(premises: seq<String>, conclusion: String, steps: seq<ProofStep>, verify: (seq<Row>, String) -> bool)
    requires Transmissible(premises, conclusion, steps)
    ensures JavaOracle(verify)(EncodeRequest(premises, conclusion, steps))
      == ProcessReply(0, VerdictLine(Evaluate(Inputs(conclusion, premises, steps), verify)) + "\n", "")
  {
    RoundTrip(premises, conclusion, steps);
  }

  /** The driver reads a verdict line back as the object it spells. */
  lemma VerdictChecked(valid: bool, parse: String -> Option<Json>)
    requires parse(VerdictLine(true)) == Some(JObject(map["valid" := JBool(true)]))
    requires parse(VerdictLine(false)) == Some(JObject(map["valid" := JBool(false)]))
    ensures CheckReply(ProcessReply(0, VerdictLine(valid) + "\n", ""), parse) == Ok(JObject(map["valid" := JBool(valid)]))
  {
    VerdictLineStripped(valid);
  }

  /** A `{"valid": b}` verdict ends the driver with 0 exactly when `b` holds. */
  lemma VerdictReported(valid: bool)
    ensures Report(Ok(JObject(map["valid" := JBool(valid)]))).exitCode == 0 <==> valid
  {
    var fields := map["valid" := JBool(valid)];
    assert "valid" in fields && fields["valid"] == JBool(valid);
  }

  /** The request of the worked example: modus ponens from "P → Q" and "P". */
  lemma ModusPonensRequest()
    ensures RequestLines(["P → Q", "P"], "Q", [ProofStep("P → Q", "Premise"), ProofStep("P", "Premise"), ProofStep("Q", "→e 1,2")])
      == ["CONCLUSION|Q", "PREMISE|P → Q", "PREMISE|P", "STEP|P → Q||Premise", "STEP|P||Premise", "STEP|Q||→e 1,2"]
  {
    var lines := RequestLines(["P → Q", "P"], "Q", [ProofStep("P → Q", "Premise"), ProofStep("P", "Premise"), ProofStep("Q", "→e 1,2")]);
    assert lines[0] == "CONCLUSION|Q";
    assert lines[1] == "PREMISE|P → Q";
    assert lines[2] == "PREMISE|P";
    assert lines[3] == "STEP|P → Q||Premise";
    assert lines[4] == "STEP|P||Premise";
    assert lines[5] == "STEP|Q||→e 1,2";
  }

  /** A `||` inside a formula is not escaped: the verifier splits there and moves the rest into the rule. */
  lemma SeparatorInFormulaMovesIntoRule()
    ensures ReadInputs(EncodeRequest([], "Q", [ProofStep("P||Q", "R")]))
      == Ok(Inputs("Q", [], [ProofStep("P", "Q||R")]))
  {
    var steps := [ProofStep("P||Q", "R")];
    assert NoBreaks("Q") && NoBreaks("P||Q") && NoBreaks("R");
    EncodeThenRead([], "Q", steps);
    SplitAtInnerSeparator();
    assert Resplit(steps)[0] == ProofStep("P", "Q||R");
    assert Resplit(steps) == [ProofStep("P", "Q||R")];
  }

  lemma SplitAtInnerSeparator()
    ensures SplitStep("P||Q" + FieldSeparator + "R") == ProofStep("P", "Q||R")
  {
    assert "P||Q" == "P" + FieldSeparator + "Q";
    assert "Q||R" == "Q" + FieldSeparator + "R";
    assert ("P" + FieldSeparator + "Q") + FieldSeparator + "R" == "P" + FieldSeparator + ("Q" + FieldSeparator + "R");
    assert !ContainsSeparator("P") && !EndsWithBar("P");
    SplitStepRecovers("P", "Q||R");
  }
}

=== FILE: json.dfy ===
/**
 The JSON values the Python driver receives from `json.loads`, Python's truth
 value of them, and the decoding of JSON string contents (RFC 8259, section 7),
 which is what a JSON reader applies to the text between the quotes of the
 verifier's `error` field.
 */
module Json {
  import opened Wrappers
  import opened Text

  /** A parsed JSON value; numbers are kept as integers. */
  datatype Json =
    | JNull
    | JBool(b: bool)
    | JNumber(n: int)
    | JString(s: String)
    | JArray(items: seq<Json>)
    | JObject(fields: map<String, Json>)

  /** Python's `bool(v)` for a value produced by `json.loads`. */
  predicate Truthy(v: Json)
    ensures !Truthy(v) <==> v in {JNull, JBool(false), JNumber(0), JString([]), JArray([]), JObject(map[])}
  {
    match v
    case JNull => false
    case JBool(b) => b
    case JNumber(n) => n != 0
    case JString(s) => |s| > 0
    case JArray(items) => |items| > 0
    case JObject(fields) => |fields| > 0
  }

  predicate IsHexDigit(c: char) {
    '0' <= c <= '9' || 'a' <= c <= 'f' || 'A' <= c <= 'F'
  }

  function HexDigitValue(c: char): (v: nat)
    requires IsHexDigit(c)
    ensures v < 16
  {
    if '0' <= c <= '9' then c as int - '0' as int
    else if 'a' <= c <= 'f' then c as int - 'a' as int + 10
    else c as int - 'A' as int + 10
  }

  /** Four hexadecimal digits start at position `at` of `s`. */
  predicate HexQuad(s: String, at: nat) {
    at + 4 <= |s| && IsHexDigit(s[at]) && IsHexDigit(s[at + 1]) && IsHexDigit(s[at + 2]) && IsHexDigit(s[at + 3])
  }

  /** The 16-bit code unit that the four hexadecimal digits at `at` denote. */
  function QuadValue(s: String, at: nat): (v: nat)
    requires HexQuad(s, at)
    ensures v < 0x10000
  {
    ((HexDigitValue(s[at]) * 16 + HexDigitValue(s[at + 1])) * 16 + HexDigitValue(s[at + 2])) * 16
      + HexDigitValue(s[at + 3])
  }

  predicate IsHighSurrogate(u: int) {
    0xD800 <= u <= 0xDBFF
  }

  predicate IsLowSurrogate(u: int) {
    0xDC00 <= u <= 0xDFFF
  }

  /** The character that a UTF-16 surrogate pair stands for. */
  function CombineSurrogates(high: int, low: int): (c: char)
    requires IsHighSurrogate(high) && IsLowSurrogate(low)
    ensures 0x10000 <= c as int
  {
    (0x10000 + (high - 0xD800) * 0x400 + (low - 0xDC00)) as char
  }

  /** The character a two-character escape `\x` stands for, if `x` names one. */
  function ShortEscape(x: char): Option<char>
  {
    if x == '"' then Some('"')
    else if x == '\\' then Some('\\')
    else if x == '/' then Some('/')
    else if x == 'b' then Some(8 as char)
    else if x == 'f' then Some(12 as char)
    else if x == 'n' then Some('\n')
    else if x == 'r' then Some('\r')
    else if x == 't' then Some('\t')
    else None
  }

  function Cons(c: char, rest: Option<String>): Option<String>
  {
    match rest
    case None => None
    case Some(t) => Some([c] + t)
  }

  /**
   Decodes the contents of a JSON string literal: unescaped characters other
   than `"`, `\` and controls stand for themselves; `\uXXXX` (either case of
   hex digit) stands for a code unit, and a high surrogate must be followed by
   an escaped low surrogate. Anything else is malformed.
   */
  function Unescape(s: String): Option<String>
    decreases |s|
  {
    if |s| == 0 then Some([])
    else if s[0] != '\\' then
      if s[0] == '"' || s[0] as int < 0x20 then None else Cons(s[0], Unescape(s[1..]))
    else if |s| < 2 then None
    else if s[1] != 'u' then
      match ShortEscape(s[1])
      case None => None
      case Some(c) => Cons(c, Unescape(s[2..]))
    else if !HexQuad(s, 2) then None
    else
      var u := QuadValue(s, 2);
      if IsLowSurrogate(u) then None
      else if !IsHighSurrogate(u) then Cons(u as char, Unescape(s[6..]))
      else if 12 <= |s| && s[6] == '\\' && s[7] == 'u' && HexQuad(s, 8) && IsLowSurrogate(QuadValue(s, 8)) then
        Cons(CombineSurrogates(u, QuadValue(s, 8)), Unescape(s[12..]))
      else None
  }
}

=== FILE: line_reader.dfy ===
/** `java.io.BufferedReader.readLine`: the lines the verifier sees in its input. */
module LineReader {
  import opened Text

  /** A line ends at a line feed, a carriage return, or a carriage return followed by a line feed. */
  predicate IsLineBreak(c: char) {
    c == '\n' || c == '\r'
  }

  predicate NoBreaks(s: String) {
    forall k :: 0 <= k < |s| ==> !IsLineBreak(s[k])
  }

  /** Position of the first line break in `text`, or `|text|` when there is none. */
  function LineEnd(text: String): (i: nat)
    ensures i <= |text|
    ensures forall k :: 0 <= k < i ==> !IsLineBreak(text[k])
    ensures i < |text| ==> IsLineBreak(text[i])
  {
    if |text| == 0 || IsLineBreak(text[0]) then 0 else 1 + LineEnd(text[1..])
  }

  /**
   The successive results of `readLine` until it returns `null`: a final
   line without a terminator is still a line, and a final terminator does not
   start an empty one.
   */
  function ReadLines(text: String): (lines: seq<String>)
    ensures forall k :: 0 <= k < |lines| ==> NoBreaks(lines[k])
    ensures |lines| <= |text|
    decreases |text|
  {
    if |text| == 0 then []
    else
      var i := LineEnd(text);
      var next :=
        if i == |text| then i
        else if text[i] == '\r' && i + 1 < |text| && text[i + 1] == '\n' then i + 2
        else i + 1;
      [text[..i]] + ReadLines(text[next..])
  }

  lemma LineEndOfTerminated(line: String, nl: String, rest: String)
    requires NoBreaks(line)
    requires |nl| > 0 && IsLineBreak(nl[0])
    ensures LineEnd(line + nl + rest) == |line|
  {
    var text := line + nl + rest;
    assert forall k :: 0 <= k < |line| ==> text[k] == line[k];
    assert text[|line|] == nl[0];
  }

  /** `readLine` on a terminated break-free line returns the line and resumes after the terminator. */
  lemma ReadTerminatedLine(line: String, nl: String, rest: String)
    requires nl == "\n" || nl == "\r\n"
    requires NoBreaks(line)
    ensures ReadLines(line + nl + rest) == [line] + ReadLines(rest)
  {
    var text := line + nl + rest;
    LineEndOfTerminated(line, nl, rest);
    var i := |line|;
    assert text[..i] == line;
    assert text[i] == nl[0];
    if nl == "\n" {
      assert !(text[i] == '\r');
      assert text[i + 1..] == rest;
    } else {
      assert text[i] == '\r' && text[i + 1] == '\n';
      assert text[i + 2..] == rest;
    }
  }

  /** Reading lines back from text in which every line is terminated by `\n` or by `\r\n`. */
  lemma {:induction false} ReadTerminatedLines(lines: seq<String>, nl: String)
    requires nl == "\n" || nl == "\r\n"
    requires forall k :: 0 <= k < |lines| ==> NoBreaks(lines[k])
    ensures ReadLines(Terminated(lines, nl)) == lines
  {
    if |lines| > 0 {
      var rest := Terminated(lines[1..], nl);
      assert Terminated(lines, nl) == lines[0] + nl + rest;
      ReadTerminatedLine(lines[0], nl, rest);
      ReadTerminatedLines(lines[1..], nl);
      assert lines == [lines[0]] + lines[1..];
    }
  }
}

=== FILE: message_escape.dfy ===
/**
 `ProofVerifier.escape`: the verifier's JSON string escaper, which walks the
 message's UTF-16 code units (Java's `toCharArray`), and the proof that a JSON
 reader decodes its output back to the message.
 */
module MessageEscape {
  import opened Wrappers
  import opened Text
  import Json

  /** The UTF-16 code units of one character. */
  function Utf16(c: char): (units: seq<int>)
    ensures |units| == 1 || |units| == 2
    ensures forall k :: 0 <= k < |units| ==> 0 <= units[k] < 0x10000
  {
    var v := c as int;
    if v < 0x10000 then [v] else [0xD800 + (v - 0x10000) / 0x400, 0xDC00 + (v - 0x10000) % 0x400]
  }

  predicate IsCodeUnits(units: seq<int>) {
    forall k :: 0 <= k < |units| ==> 0 <= units[k] < 0x10000
  }

  /** Java's `message.toCharArray()`. */
  function CodeUnits(m: String): (units: seq<int>)
    ensures IsCodeUnits(units)
    ensures |m| <= |units| <= 2 * |m|
  {
    if |m| == 0 then [] else Utf16(m[0]) + CodeUnits(m[1..])
  }

  predicate IsPrintableAscii(c: char) {
    0x20 <= c as int <= 0x7E
  }

  predicate IsLowerHexDigit(c: char) {
    '0' <= c <= '9' || 'a' <= c <= 'f'
  }

  function HexDigit(d: nat): char
    requires d < 16
  {
    if d < 10 then (d + '0' as int) as char else (d - 10 + 'a' as int) as char
  }

  /** `String.format("%04x", u)`: four lower-case hexadecimal digits. */
  function Hex4(u: int): (r: String)
    requires 0 <= u < 0x10000
    ensures |r| == 4
  {
    [HexDigit(u / 0x1000), HexDigit(u / 0x100 % 16), HexDigit(u / 0x10 % 16), HexDigit(u % 16)]
  }

  /** A digit is lower-case hexadecimal and read back as itself. */
  lemma HexDigitDenotes(d: nat)
    requires d < 16
    ensures IsLowerHexDigit(HexDigit(d)) && Json.IsHexDigit(HexDigit(d)) && Json.HexDigitValue(HexDigit(d)) == d
  {
  }

  /** The four base-16 digits of a 16-bit value, most significant first, recombine to it. */
  lemma Base16Digits(u: int)
    requires 0 <= u < 0x10000
    ensures ((u / 0x1000 * 16 + u / 0x100 % 16) * 16 + u / 0x10 % 16) * 16 + u % 16 == u
  {
    assert u == u / 0x10 * 16 + u % 16;
    assert u / 0x10 == u / 0x100 * 16 + u / 0x10 % 16;
    assert u / 0x100 == u / 0x1000 * 16 + u / 0x100 % 16;
  }

  /** The four digits are lower-case hexadecimal and denote `u`. */
  lemma Hex4Denotes(u: int)
    requires 0 <= u < 0x10000
    ensures forall k :: 0 <= k < 4 ==> IsLowerHexDigit(Hex4(u)[k])
    ensures Json.HexQuad(Hex4(u), 0) && Json.QuadValue(Hex4(u), 0) == u
  {
    var d0, d1, d2, d3 := u / 0x1000, u / 0x100 % 16, u / 0x10 % 16, u % 16;
    HexDigitDenotes(d0);
    HexDigitDenotes(d1);
    HexDigitDenotes(d2);
    HexDigitDenotes(d3);
    Base16Digits(u);
  }

  /** What one code unit becomes in the escaped message. */
  function EscapeUnit(u: int): (r: String)
    requires 0 <= u < 0x10000
    ensures 1 <= |r| <= 6
    ensures All(r, IsPrintableAscii)
    ensures (u < 0x20 || 0x7E < u) ==>
      |r| == 6 && r[..2] == "\\u" && (forall k :: 2 <= k < 6 ==> IsLowerHexDigit(r[k]))
      && Json.HexQuad(r, 2) && Json.QuadValue(r, 2) == u
  {
    if u == '"' as int || u == '\\' as int then ['\\', u as char]
    else if 0x20 <= u <= 0x7E then [u as char]
    else
      Hex4Denotes(u);
      var r := "\\u" + Hex4(u);
      assert forall k :: 2 <= k < 6 ==> r[k] == Hex4(u)[k - 2];
      r
  }

  /** The escaper's loop over the code units. */
  function EscapeUnits(units: seq<int>): (r: String)
    requires IsCodeUnits(units)
    ensures All(r, IsPrintableAscii)
    ensures |units| <= |r| <= 6 * |units|
  {
    if |units| == 0 then []
    else
      var r := EscapeUnit(units[0]) + EscapeUnits(units[1..]);
      AllConcat(EscapeUnit(units[0]), EscapeUnits(units[1..]), IsPrintableAscii);
      r
  }

  /**
   `escape(message)`: printable ASCII only, at least one and at most six
   output characters per UTF-16 code unit (Java's `length()` counts those).
   */
  function Escape(message: String): (r: String)
    ensures All(r, IsPrintableAscii)
    ensures |message| <= |CodeUnits(message)| <= |r| <= 6 * |CodeUnits(message)|
  {
    EscapeUnits(CodeUnits(message))
  }

  /** The escaped message holds no line break. */
  lemma EscapeHasNoBreak(message: String)
    ensures '\n' !in Escape(message)
  {
    var r := Escape(message);
    assert forall k :: 0 <= k < |r| ==> r[k] != '\n';
  }

  lemma {:induction false} EscapeUnitsAppend(a: seq<int>, b: seq<int>)
    requires IsCodeUnits(a) && IsCodeUnits(b)
    ensures EscapeUnits(a + b) == EscapeUnits(a) + EscapeUnits(b)
  {
    if |a| > 0 {
      var ab := a + b;
      assert ab[0] == a[0];
      assert ab[1..] == a[1..] + b;
      EscapeUnitsAppend(a[1..], b);
      calc {
        EscapeUnits(ab);
        EscapeUnit(a[0]) + EscapeUnits(a[1..] + b);
        EscapeUnit(a[0]) + (EscapeUnits(a[1..]) + EscapeUnits(b));
        (EscapeUnit(a[0]) + EscapeUnits(a[1..])) + EscapeUnits(b);
        EscapeUnits(a) + EscapeUnits(b);
      }
    } else {
      assert a + b == b;
    }
  }

  /** A printable, non-special code unit is copied; quote and backslash are preceded by a backslash. */
  lemma EscapeUnitCases(u: int)
    requires 0 <= u < 0x10000
    ensures u == '"' as int || u == '\\' as int ==> EscapeUnit(u) == ['\\', u as char]
    ensures 0x20 <= u <= 0x7E && u != '"' as int && u != '\\' as int ==> EscapeUnit(u) == [u as char]
  {
  }

  /** Decoding the escape of one unit that is not a surrogate yields the unit's character. */
  lemma UnescapeUnit(u: int, rest: String)
    requires 0 <= u < 0xD800 || 0xE000 <= u < 0x10000
    ensures Json.Unescape(EscapeUnit(u) + rest) == Json.Cons(u as char, Json.Unescape(rest))
  {
    var e := EscapeUnit(u);
    var s := e + rest;
    if u == '"' as int || u == '\\' as int {
      assert s[0] == '\\' && s[1] == u as char;
      assert s[2..] == rest;
    } else if 0x20 <= u <= 0x7E {
      assert s[0] == u as char;
      assert s[1..] == rest;
    } else {
      assert s[0] == '\\' && s[1] == 'u';
      assert forall k :: 0 <= k < 6 ==> s[k] == e[k];
      assert Json.HexQuad(s, 2) && Json.QuadValue(s, 2) == Json.QuadValue(e, 2);
      assert s[6..] == rest;
    }
  }

  /** Decoding the escape of a character outside the Basic Multilingual Plane. */
  lemma UnescapeSurrogatePair(c: char, rest: String)
    requires 0x10000 <= c as int
    ensures Json.Unescape(EscapeUnits(Utf16(c)) + rest) == Json.Cons(c, Json.Unescape(rest))
  {
    var v := c as int;
    var hi, lo := 0xD800 + (v - 0x10000) / 0x400, 0xDC00 + (v - 0x10000) % 0x400;
    assert Utf16(c) == [hi, lo];
    SurrogatesOf(c);
    var eh, el := EscapeUnit(hi), EscapeUnit(lo);
    assert EscapeUnits([hi, lo]) == eh + el by {
      assert [hi, lo][1..] == [lo];
    }
    EscapedPairPositions(eh, el, rest, hi, lo);
    UnescapeEscapedPair(eh + el + rest, hi, lo);
  }

  /** The two code units of a supplementary character are a high and a low surrogate that combine back to it. */
  lemma SurrogatesOf(c: char)
    requires 0x10000 <= c as int
    ensures var v := c as int; var hi, lo := 0xD800 + (v - 0x10000) / 0x400, 0xDC00 + (v - 0x10000) % 0x400;
      Json.IsHighSurrogate(hi) && Json.IsLowSurrogate(lo) && Json.CombineSurrogates(hi, lo) == c
  {
  }

  /** Where the two escapes of a surrogate pair sit in the escaped text. */
  lemma EscapedPairPositions(eh: String, el: String, rest: String, hi: int, lo: int)
    requires 0xD800 <= hi < 0x10000 && 0xD800 <= lo < 0x10000
    requires eh == EscapeUnit(hi) && el == EscapeUnit(lo)
    ensures var s := eh + el + rest;
      && |s| >= 12 && s[0] == '\\' && s[1] == 'u' && Json.HexQuad(s, 2) && Json.QuadValue(s, 2) == hi
      && s[6] == '\\' && s[7] == 'u' && Json.HexQuad(s, 8) && Json.QuadValue(s, 8) == lo
      && s[12..] == rest
  {
    var s := eh + el + rest;
    assert forall k :: 0 <= k < 6 ==> s[k] == eh[k];
    assert forall k :: 6 <= k < 12 ==> s[k] == el[k - 6];
    assert Json.QuadValue(s, 8) == Json.QuadValue(el, 2);
  }

  /** A JSON reader turns an escaped surrogate pair into the character it encodes. */
  lemma UnescapeEscapedPair(s: String, hi: int, lo: int)
    requires Json.IsHighSurrogate(hi) && Json.IsLowSurrogate(lo)
    requires |s| >= 12 && s[0] == '\\' && s[1] == 'u' && Json.HexQuad(s, 2) && Json.QuadValue(s, 2) == hi
    requires s[6] == '\\' && s[7] == 'u' && Json.HexQuad(s, 8) && Json.QuadValue(s, 8) == lo
    ensures Json.Unescape(s) == Json.Cons(Json.CombineSurrogates(hi, lo), Json.Unescape(s[12..]))
  {
  }

  /** A JSON reader recovers the message from its escape. */
  lemma {:induction false} UnescapeEscape(message: String)
    ensures Json.Unescape(Escape(message)) == Some(message)
  {
    if |message| > 0 {
      var c := message[0];
      var rest := message[1..];
      EscapeUnitsAppend(Utf16(c), CodeUnits(rest));
      assert Escape(message) == EscapeUnits(Utf16(c)) + Escape(rest);
      UnescapeEscape(rest);
      if c as int < 0x10000 {
        assert Utf16(c) == [c as int];
        assert EscapeUnits([c as int]) == EscapeUnit(c as int);
        UnescapeUnit(c as int, Escape(rest));
      } else {
        UnescapeSurrogatePair(c, Escape(rest));
      }
      assert [c] + rest == message;
    }
  }
}

=== FILE: prompt.dfy ===
/** `build_user_prompt`: the user message sent to the generation backend. */
module Prompt {
  import opened Text

  // The longer texts are written as concatenations of short pieces, so that
  // each piece can be inspected character by character in the proofs.
  const Instruction: String :=
    "Find a proof that derives " + "the conclusion from " + "the premises."
  const PremisesHeading: String := "Premises:"
  const NoPremises: String := "No premises " + "(empty context)."
  const IncludePremises: String :=
    "Return a complete sequence " + "of proof lines, including " + "the premises as the first lines."
  const NumberFromOne: String := "Ensure references match " + "line numbers starting at 1."

  /** The line `"  {idx}. {premise}"`. */
  function NumberedLine(idx: nat, premise: String): (line: String)
    ensures StartsWith(line, "  ") && EndsWith(line, ". " + premise)
    ensures |line| == 4 + |Decimal(idx)| + |premise|
  {
    "  " + Decimal(idx) + ". " + premise
  }

  /** The premise lines of `enumerate(premises, start=start)`. */
  function NumberedPremises(premises: seq<String>, start: nat): (lines: seq<String>)
    ensures |lines| == |premises|
    ensures forall i :: 0 <= i < |premises| ==> lines[i] == NumberedLine(start + i, premises[i])
  {
    if |premises| == 0 then []
    else [NumberedLine(start, premises[0])] + NumberedPremises(premises[1..], start + 1)
  }

  /**
   The prompt's lines: the instruction; either the heading and the premises
   numbered from 1 or the no-premises line; the conclusion; an empty line;
   and the two closing instructions.
   */
  function PromptLines(premises: seq<String>, conclusion: String): (lines: seq<String>)
    ensures |lines| == (if |premises| > 0 then |premises| + 6 else 6)
    ensures lines[0] == Instruction
    ensures |premises| > 0 ==> lines[1] == PremisesHeading
    ensures |premises| > 0 ==> forall i :: 0 <= i < |premises| ==> lines[2 + i] == NumberedLine(i + 1, premises[i])
    ensures |premises| == 0 ==> lines[1] == NoPremises
    ensures lines[|lines| - 4] == "Conclusion: " + conclusion
    ensures lines[|lines| - 3] == ""
    ensures lines[|lines| - 2] == IncludePremises && lines[|lines| - 1] == NumberFromOne
  {
    var body := if |premises| > 0 then [PremisesHeading] + NumberedPremises(premises, 1) else [NoPremises];
    [Instruction] + body + ["Conclusion: " + conclusion, "", IncludePremises, NumberFromOne]
  }

  /** `"\n".join(lines)`: the text opens with the instruction line and closes with the last instruction. */
  function BuildUserPrompt(premises: seq<String>, conclusion: String): (prompt: String)
    ensures StartsWith(prompt, Instruction + "\n")
    ensures EndsWith(prompt, "\n" + NumberFromOne)
  {
    var lines := PromptLines(premises, conclusion);
    JoinEnds(lines, "\n");
    Join(lines, "\n")
  }

  /** A numbered premise line spells its number in decimal after two spaces. */
  lemma NumberedLineDenotes(idx: nat, premise: String)
    ensures var line := NumberedLine(idx, premise); var d := |Decimal(idx)|;
      && line[..2] == "  " && line[2 + d..4 + d] == ". " && line[4 + d..] == premise
      && (forall k :: 2 <= k < 2 + d ==> IsDigit(line[k]))
      && DecimalValue(line[2..2 + d]) == idx
  {
    var line := NumberedLine(idx, premise);
    var d := |Decimal(idx)|;
    assert line[2..2 + d] == Decimal(idx);
    DecimalRoundTrip(idx);
  }

  // The fixed lines hold no line break; one small lemma each keeps the proofs cheap.
  lemma InstructionHasNoBreak() ensures '\n' !in Instruction {}
  lemma NoPremisesHasNoBreak() ensures '\n' !in NoPremises {}
  lemma IncludePremisesHasNoBreak() ensures '\n' !in IncludePremises {}
  lemma NumberFromOneHasNoBreak() ensures '\n' !in NumberFromOne {}

  lemma FixedLinesHaveNoBreaks()
    ensures '\n' !in Instruction && '\n' !in PremisesHeading && '\n' !in NoPremises
    ensures '\n' !in IncludePremises && '\n' !in NumberFromOne
  {
    InstructionHasNoBreak();
    NoPremisesHasNoBreak();
    IncludePremisesHasNoBreak();
    NumberFromOneHasNoBreak();
  }

  lemma NumberedLineHasNoBreak(idx: nat, premise: String)
    requires '\n' !in premise
    ensures '\n' !in NumberedLine(idx, premise)
  {
    var line := NumberedLine(idx, premise);
    var d := Decimal(idx);
    assert line == "  " + d + ". " + premise;
    assert forall j :: 0 <= j < |d| ==> d[j] != '\n';
  }

  /**
   When no premise and not the conclusion holds a line break, splitting the
   prompt at `\n` gives back exactly its lines: n + 6 of them with n > 0
   premises, 6 without.
   */
  lemma PromptSplitsIntoLines(premises: seq<String>, conclusion: String)
    requires forall k :: 0 <= k < |premises| ==> '\n' !in premises[k]
    requires '\n' !in conclusion
    ensures Split(BuildUserPrompt(premises, conclusion), '\n') == PromptLines(premises, conclusion)
    ensures |Split(BuildUserPrompt(premises, conclusion), '\n')| == if |premises| > 0 then |premises| + 6 else 6
  {
    var lines := PromptLines(premises, conclusion);
    FixedLinesHaveNoBreaks();
    forall k | 0 <= k < |lines| ensures '\n' !in lines[k] {
      if 2 <= k < |lines| - 4 && |premises| > 0 {
        NumberedLineHasNoBreak(k - 1, premises[k - 2]);
      } else if k == |lines| - 4 {
        assert lines[k] == "Conclusion: " + conclusion;
      }
    }
    SplitJoin(lines, '\n');
  }
}

=== FILE: protocol.dfy ===
/**
 The records exchanged between the driver and the verifier, and the tags of
 the line-oriented request format:

     CONCLUSION|<conclusion>
     PREMISE|<premise>            one per premise, in order
     STEP|<formula>||<rule>       one per proof step, in order
 */
module Protocol {
  import opened Text

  /** A proof line: the formula and its justification (rule mnemonic plus cited lines). */
  datatype ProofStep = ProofStep(formula: String, rule: String)

  /** What the verifier reads from its input: conclusion, premises and steps. */
  datatype Inputs = Inputs(conclusion: String, premises: seq<String>, steps: seq<ProofStep>)

  const ConclusionTag: String := "CONCLUSION|"
  const PremiseTag: String := "PREMISE|"
  const StepTag: String := "STEP|"

  /** Separates a step's formula from its rule. */
  const FieldSeparator: String := "||"

  /** `s` contains the field separator. */
  predicate ContainsSeparator(s: String) {
    exists k :: 0 <= k < |s| - 1 && s[k] == '|' && s[k + 1] == '|'
  }

  predicate EndsWithBar(s: String) {
    |s| > 0 && s[|s| - 1] == '|'
  }
}

=== FILE: text.dfy ===
/**
 Character-sequence helpers shared by the Python driver and the Java verifier:
 prefix tests, whitespace stripping parameterised by the language's notion of
 whitespace, joining and splitting at a separator, and decimal rendering.
 */
module Text {

  type String = seq<char>

  predicate StartsWith(s: String, prefix: String) {
    |prefix| <= |s| && s[..|prefix|] == prefix
  }

  /** Every character of `s` satisfies `p`. */
  predicate All(s: String, p: char -> bool) {
    forall k :: 0 <= k < |s| ==> p(s[k])
  }

  /** Length of the longest prefix of `s` made of `ws` characters. */
  function LeadingRun(s: String, ws: char -> bool): (k: nat)
    ensures k <= |s|
    ensures forall j :: 0 <= j < k ==> ws(s[j])
    ensures k < |s| ==> !ws(s[k])
  {
    if |s| > 0 && ws(s[0]) then 1 + LeadingRun(s[1..], ws) else 0
  }

  /** Length of the longest suffix of `s` made of `ws` characters. */
  function TrailingRun(s: String, ws: char -> bool): (k: nat)
    ensures k <= |s|
    ensures forall j :: |s| - k <= j < |s| ==> ws(s[j])
    ensures k < |s| ==> !ws(s[|s| - 1 - k])
  {
    if |s| > 0 && ws(s[|s| - 1]) then 1 + TrailingRun(s[..|s| - 1], ws) else 0
  }

  /**
   `s` without its leading and trailing `ws` characters: Java's `trim` and
   `strip` and Python's `str.strip`, each with its own `ws`.
   */
  function Strip(s: String, ws: char -> bool): (r: String)
    ensures |r| <= |s|
    ensures r == [] <==> All(s, ws)
    ensures r != [] ==> !ws(r[0]) && !ws(r[|r| - 1])
    ensures LeadingRun(s, ws) + |r| <= |s|
    ensures r == s[LeadingRun(s, ws)..LeadingRun(s, ws) + |r|]
    ensures forall j :: LeadingRun(s, ws) + |r| <= j < |s| ==> ws(s[j])
  {
    var i := LeadingRun(s, ws);
    var t := s[i..];
    t[..|t| - TrailingRun(t, ws)]
  }

  /** Concatenation keeps a property every character has. */
  lemma AllConcat(a: String, b: String, p: char -> bool)
    requires All(a, p) && All(b, p)
    ensures All(a + b, p)
  {
    forall k | 0 <= k < |a + b| ensures p((a + b)[k]) {
      if k < |a| { assert (a + b)[k] == a[k]; } else { assert (a + b)[k] == b[k - |a|]; }
    }
  }

  /** Stripping a padded text gives back the text when it neither starts nor ends with `ws`. */
  lemma StripPadded(pre: String, t: String, post: String, ws: char -> bool)
    requires All(pre, ws) && All(post, ws)
    requires t != [] ==> !ws(t[0]) && !ws(t[|t| - 1])
    ensures Strip(pre + t + post, ws) == t
  {
    var s := pre + t + post;
    var r := Strip(s, ws);
    if t == [] {
      assert s == pre + post;
      AllConcat(pre, post, ws);
    } else {
      var i := LeadingRun(s, ws);
      assert forall j :: 0 <= j < |pre| ==> s[j] == pre[j];
      assert forall j :: |pre| + |t| <= j < |s| ==> s[j] == post[j - |pre| - |t|];
      assert s[|pre|] == t[0];
      assert s[|pre| + |t| - 1] == t[|t| - 1];
      assert i == |pre|;
      assert r != [];
      assert |r| == |t|;
      assert s[|pre|..|pre| + |t|] == t;
    }
  }

  /** A text is its leading `ws` run, its stripped core and its trailing `ws` run. */
  lemma StripDecomposes(s: String, ws: char -> bool)
    ensures var i, r := LeadingRun(s, ws), Strip(s, ws);
      && s == s[..i] + r + s[i + |r|..]
      && All(s[..i], ws) && All(s[i + |r|..], ws)
  {
    var i, r := LeadingRun(s, ws), Strip(s, ws);
    var n := i + |r|;
    Slices(s, i, n);
    var a, b := s[..i], s[n..];
    assert forall j :: 0 <= j < |a| ==> a[j] == s[j];
    assert forall j :: 0 <= j < |b| ==> b[j] == s[n + j];
    assert All(a, ws);
    assert All(b, ws) by {
      forall j | 0 <= j < |b| ensures ws(b[j]) {
        assert ws(s[n + j]);
      }
    }
  }

  /**
   `r` is `s` without its leading and trailing runs of `ws` characters: a
   middle slice of `s` with only `ws` characters around it, empty exactly
   when `s` is all `ws`, and neither starting nor ending with `ws`.
   */
  predicate IsStripOf(r: String, s: String, ws: char -> bool) {
    var i := LeadingRun(s, ws);
    && All(s[..i], ws) && i + |r| <= |s| && r == s[i..i + |r|] && All(s[i + |r|..], ws)
    && (r == [] <==> All(s, ws))
    && (r != [] ==> !ws(r[0]) && !ws(r[|r| - 1]))
  }

  lemma StripFacts(s: String, ws: char -> bool)
    ensures IsStripOf(Strip(s, ws), s, ws)
  {
    StripDecomposes(s, ws);
  }

  /** Stripping a text that neither starts nor ends with `ws` gives it back. */
  lemma StripUnpadded(t: String, ws: char -> bool)
    requires t != [] ==> !ws(t[0]) && !ws(t[|t| - 1])
    ensures Strip(t, ws) == t
  {
    StripPadded([], t, [], ws);
    AppendEmpty(t);
  }

  /** Whitespace added around a text does not change what stripping it gives. */
  lemma StripAbsorbsPadding(pre: String, s: String, post: String, ws: char -> bool)
    requires All(pre, ws) && All(post, ws)
    ensures Strip(pre + s + post, ws) == Strip(s, ws)
  {
    var r := Strip(s, ws);
    var i := LeadingRun(s, ws);
    var a := s[..i];
    var b := s[i + |r|..];
    StripDecomposes(s, ws);
    AllConcat(pre, a, ws);
    AllConcat(b, post, ws);
    Regroup(pre, a, r, b, post);
    StripPadded(pre + a, r, b + post, ws);
  }

  /** Cutting a sequence at two points and gluing the pieces back gives the sequence. */
  lemma Slices<T>(s: seq<T>, i: nat, j: nat)
    requires i <= j <= |s|
    ensures s == s[..i] + s[i..j] + s[j..]
  {
  }

  /** Concatenation is associative. */
  lemma AppendAssoc<T>(a: seq<T>, b: seq<T>, c: seq<T>)
    ensures a + (b + c) == (a + b) + c
  {
  }

  /** Moving the outer pieces of a five-part concatenation inwards. */
  lemma Regroup<T>(p: seq<T>, a: seq<T>, r: seq<T>, b: seq<T>, q: seq<T>)
    ensures p + (a + r + b) + q == (p + a) + r + (b + q)
  {
  }

  /** A non-empty sequence is its prefix followed by its last element. */
  lemma SnocParts<T>(s: seq<T>)
    requires |s| > 0
    ensures s == s[..|s| - 1] + [s[|s| - 1]]
  {
  }

  /** The empty sequence is a unit of concatenation. */
  lemma AppendEmpty<T>(s: seq<T>)
    ensures [] + s == s && s + [] == s
  {
  }

  /** Dropping the head of a sequence built with it. */
  lemma ConsTail<T>(x: T, s: seq<T>)
    ensures ([x] + s)[0] == x && ([x] + s)[1..] == s
  {
  }

  /** Appending a non-empty block is appending all of it but its last element, then that element. */
  lemma AppendSnoc<T>(a: seq<T>, b: seq<T>)
    requires |b| > 0
    ensures a + b == (a + b[..|b| - 1]) + [b[|b| - 1]]
  {
    SnocParts(b);
  }

  /** Python's `sep.join(parts)`. */
  function Join(parts: seq<String>, sep: String): (r: String)
    ensures |parts| == 0 ==> r == []
    ensures |parts| > 0 ==> StartsWith(r, parts[0]) && EndsWith(r, parts[|parts| - 1])
  {
    if |parts| == 0 then []
    else if |parts| == 1 then parts[0]
    else parts[0] + sep + Join(parts[1..], sep)
  }

  predicate EndsWith(s: String, suffix: String) {
    |suffix| <= |s| && s[|s| - |suffix|..] == suffix
  }

  /** With two parts or more, the joined text opens with the first part and a separator and closes with a separator and the last part. */
  lemma {:induction false} JoinEnds(parts: seq<String>, sep: String)
    requires |parts| >= 2
    ensures StartsWith(Join(parts, sep), parts[0] + sep)
    ensures EndsWith(Join(parts, sep), sep + parts[|parts| - 1])
  {
    var j := Join(parts, sep);
    var rest := Join(parts[1..], sep);
    assert j == (parts[0] + sep) + rest;
    assert j[..|parts[0] + sep|] == parts[0] + sep;
    var last := parts[|parts| - 1];
    if |parts| == 2 {
      assert rest == last;
      assert j == parts[0] + (sep + last);
    } else {
      JoinEnds(parts[1..], sep);
      assert parts[1..][|parts[1..]| - 1] == last;
      assert rest[|rest| - |sep + last|..] == sep + last;
      assert j[|j| - |sep + last|..] == rest[|rest| - |sep + last|..];
    }
  }

  /** Each of `lines` followed by the terminator `nl`. */
  function Terminated(lines: seq<String>, nl: String): String
  {
    if |lines| == 0 then [] else lines[0] + nl + Terminated(lines[1..], nl)
  }

  /** Joining at a separator and appending one more separator terminates every part. */
  lemma {:induction false} JoinThenTerminate(lines: seq<String>, sep: String)
    requires |lines| > 0
    ensures Join(lines, sep) + sep == Terminated(lines, sep)
  {
    if |lines| == 1 {
      assert Terminated(lines[1..], sep) == [];
    } else {
      JoinThenTerminate(lines[1..], sep);
      assert Join(lines, sep) + sep == lines[0] + sep + (Join(lines[1..], sep) + sep);
    }
  }

  /** Python's `s.split(sep)` for a one-character separator. */
  function Split(s: String, sep: char): (parts: seq<String>)
    ensures |parts| > 0
  {
    if |s| == 0 then [[]]
    else
      var rest := Split(s[1..], sep);
      if s[0] == sep then [[]] + rest else [[s[0]] + rest[0]] + rest[1..]
  }

  lemma {:induction false} SplitWithoutSeparator(p: String, sep: char)
    requires sep !in p
    ensures Split(p, sep) == [p]
  {
    if |p| > 0 {
      assert p[0] != sep;
      assert sep !in p[1..];
      SplitWithoutSeparator(p[1..], sep);
      assert [p[0]] + p[1..] == p;
    }
  }

  lemma {:induction false} SplitAtFirstSeparator(p: String, sep: char, t: String)
    requires sep !in p
    ensures Split(p + [sep] + t, sep) == [p] + Split(t, sep)
  {
    var s := p + [sep] + t;
    if |p| == 0 {
      assert s[1..] == t;
    } else {
      assert s[0] == p[0] && p[0] != sep;
      assert s[1..] == p[1..] + [sep] + t;
      assert sep !in p[1..];
      SplitAtFirstSeparator(p[1..], sep, t);
      assert [p[0]] + p[1..] == p;
    }
  }

  /** Splitting undoes joining when no part holds the separator. */
  lemma {:induction false} SplitJoin(parts: seq<String>, sep: char)
    requires |parts| > 0
    requires forall k :: 0 <= k < |parts| ==> sep !in parts[k]
    ensures Split(Join(parts, [sep]), sep) == parts
  {
    if |parts| == 1 {
      SplitWithoutSeparator(parts[0], sep);
    } else {
      SplitJoin(parts[1..], sep);
      SplitAtFirstSeparator(parts[0], sep, Join(parts[1..], [sep]));
      assert parts == [parts[0]] + parts[1..];
    }
  }

  predicate IsDigit(c: char) {
    '0' <= c <= '9'
  }

  function Digit(d: nat): char
    requires d < 10
  {
    (d + '0' as int) as char
  }

  /** Python's `str(n)` for a non-negative integer. */
  function Decimal(n: nat): (r: String)
    ensures |r| > 0
    ensures forall k :: 0 <= k < |r| ==> IsDigit(r[k])
    ensures r[0] == '0' ==> n == 0
  {
    if n < 10 then [Digit(n)] else Decimal(n / 10) + [Digit(n % 10)]
  }

  /** The number a string of decimal digits denotes. */
  function DecimalValue(s: String): nat
    requires forall k :: 0 <= k < |s| ==> IsDigit(s[k])
  {
    if |s| == 0 then 0
    else
      assert IsDigit(s[|s| - 1]);
      10 * DecimalValue(s[..|s| - 1]) + (s[|s| - 1] as int - '0' as int)
  }

  /** The rendered digits denote the number they were rendered from. */
  lemma {:induction false} DecimalRoundTrip(n: nat)
    ensures DecimalValue(Decimal(n)) == n
  {
    if n >= 10 {
      DecimalRoundTrip(n / 10);
      var r := Decimal(n);
      assert r[..|r| - 1] == Decimal(n / 10);
    }
  }
}

=== FILE: verifier.dfy ===
/**
 `ProofVerifier.readInputs`: the verifier's decoder of the request. Each line
 is trimmed; blank lines and `#` lines are skipped; a `CONCLUSION|` line sets
 (or overwrites) the conclusion, a `PREMISE|` line appends a premise and a
 `STEP|` line appends a step split at its first `||`; any other line, and an
 input without a conclusion, is an error carrying the exception's message.
 */
module Verifier {
  import opened Wrappers
  import opened Text
  import opened Protocol
  import opened LineReader

  /** `String.trim` removes characters up to U+0020 from both ends. */
  predicate IsTrimmed(c: char)
    ensures c == ' ' || c == '\t' || c == '\n' || c == '\r' || c == '\U{0000}' ==> IsTrimmed(c)
    ensures IsTrimmed(c) ==> c < '!'
    ensures c == '\U{0085}' || c == '\U{00A0}' ==> !IsTrimmed(c)
  {
    c as int <= 0x20
  }

  /** `s.trim()`: `s` without its leading and trailing runs of characters up to U+0020. */
  function Trim(s: String): (r: String)
    ensures IsStripOf(r, s, IsTrimmed)
  {
    StripFacts(s, IsTrimmed);
    Strip(s, IsTrimmed)
  }

  /** `s` is unchanged at its end by trimming: it is empty or its last character is above U+0020. */
  predicate SurvivesTrim(s: String) {
    |s| == 0 || !IsTrimmed(s[|s| - 1])
  }

  /** `payload.indexOf("||")`, as an option. */
  function IndexOfSeparator(s: String): (r: Option<nat>)
    ensures r.None? <==> !ContainsSeparator(s)
    ensures r.Some? ==> r.value + 2 <= |s| && s[r.value] == '|' && s[r.value + 1] == '|'
    ensures r.Some? ==> forall k :: 0 <= k < r.value ==> !(s[k] == '|' && s[k + 1] == '|')
  {
    if |s| < 2 then None
    else if s[0] == '|' && s[1] == '|' then Some(0)
    else
      match IndexOfSeparator(s[1..])
      case None =>
        assert forall k :: 1 <= k < |s| - 1 ==> s[k] == s[1..][k - 1];
        None
      case Some(k) => Some(k + 1)
  }

  /**
   The step a `STEP|` payload denotes: split at the first `||` (the rule keeps
   any later `||`), or the whole payload as formula and an empty rule.
   */
  function SplitStep(payload: String): (step: ProofStep)
    ensures ContainsSeparator(payload) ==>
      && payload == step.formula + FieldSeparator + step.rule
      && !ContainsSeparator(step.formula) && !EndsWithBar(step.formula)
    ensures !ContainsSeparator(payload) ==> step == ProofStep(payload, "")
  {
    match IndexOfSeparator(payload)
    case None => ProofStep(payload, "")
    case Some(i) =>
      var step := ProofStep(payload[..i], payload[i + 2..]);
      assert payload == step.formula + FieldSeparator + step.rule;
      assert i == 0 || payload[i - 1] != '|';
      step
  }

  /** What one trimmed input line contributes. */
  datatype LineKind =
    | Skipped
    | ConclusionLine(conclusion: String)
    | PremiseLine(premise: String)
    | StepLine(step: ProofStep)
    | Unrecognized

  /** Classifies a trimmed line, testing the tags in the order the verifier does. */
  function Classify(line: String): (kind: LineKind)
    ensures kind.Skipped? <==> |line| == 0 || line[0] == '#'
    ensures kind.ConclusionLine? ==> line == ConclusionTag + kind.conclusion
    ensures kind.PremiseLine? ==> line == PremiseTag + kind.premise && !StartsWith(line, ConclusionTag)
    ensures kind.StepLine? ==>
      && StartsWith(line, StepTag) && kind.step == SplitStep(line[|StepTag|..])
      && !StartsWith(line, ConclusionTag) && !StartsWith(line, PremiseTag)
    ensures kind.Unrecognized? <==>
      |line| > 0 && line[0] != '#'
      && !StartsWith(line, ConclusionTag) && !StartsWith(line, PremiseTag) && !StartsWith(line, StepTag)
  {
    if |line| == 0 || line[0] == '#' then Skipped
    else if StartsWith(line, ConclusionTag) then
      assert line == line[..|ConclusionTag|] + line[|ConclusionTag|..];
      ConclusionLine(line[|ConclusionTag|..])
    else if StartsWith(line, PremiseTag) then
      assert line == line[..|PremiseTag|] + line[|PremiseTag|..];
      PremiseLine(line[|PremiseTag|..])
    else if StartsWith(line, StepTag) then StepLine(SplitStep(line[|StepTag|..]))
    else Unrecognized
  }

  /** The decoder's local variables between two lines. */
  datatype Accum = Accum(conclusion: Option<String>, premises: seq<String>, steps: seq<ProofStep>)

  const Start: Accum := Accum(None, [], [])

  /**
   The loop body for one recognised line: a conclusion line overwrites the
   conclusion, a premise or step line appends to its list, and nothing else
   changes.
   */
  function Absorb(kind: LineKind, acc: Accum): (r: Accum)
    ensures kind.Skipped? || kind.Unrecognized? ==> r == acc
    ensures r.conclusion == if kind.ConclusionLine? then Some(kind.conclusion) else acc.conclusion
    ensures r.premises == if kind.PremiseLine? then acc.premises + [kind.premise] else acc.premises
    ensures r.steps == if kind.StepLine? then acc.steps + [kind.step] else acc.steps
  {
    match kind
    case Skipped => acc
    case Unrecognized => acc
    case ConclusionLine(c) => acc.(conclusion := Some(c))
    case PremiseLine(p) => acc.(premises := acc.premises + [p])
    case StepLine(s) => acc.(steps := acc.steps + [s])
  }

  const UnrecognizedPrefix: String := "Unrecognized line: "

  /** The message of the exception for a line the decoder does not recognise. */
  function UnrecognizedMessage(line: String): (m: String)
    ensures StartsWith(m, UnrecognizedPrefix) && m[|UnrecognizedPrefix|..] == line
  {
    UnrecognizedPrefix + line
  }

  const MissingConclusion: String := "Missing conclusion"

  /** The decoder's loop over the lines, stopping at the first unrecognised one. */
  function ParseLines(lines: seq<String>, acc: Accum): (r: Result<Accum, String>)
    ensures r.Err? ==> StartsWith(r.error, UnrecognizedPrefix)
    decreases |lines|
  {
    if |lines| == 0 then Ok(acc)
    else
      var line := Trim(lines[0]);
      var kind := Classify(line);
      if kind.Unrecognized? then Err(UnrecognizedMessage(line))
      else ParseLines(lines[1..], Absorb(kind, acc))
  }

  /** `readInputs()` applied to the verifier's whole standard input. */
  function ReadInputs(text: String): (r: Result<Inputs, String>)
    ensures r.Err? ==> r.error == MissingConclusion || StartsWith(r.error, UnrecognizedPrefix)
  {
    match ParseLines(ReadLines(text), Start)
    case Err(message) => Err(message)
    case Ok(acc) =>
      if acc.conclusion.None? then Err(MissingConclusion)
      else Ok(Inputs(acc.conclusion.value, acc.premises, acc.steps))
  }

  /* An independent description of the decoder, read from the last line backwards. */

  function KindOf(line: String): LineKind {
    Classify(Trim(line))
  }

  predicate AllRecognized(lines: seq<String>) {
    forall i {:trigger KindOf(lines[i])} :: 0 <= i < |lines| ==> !KindOf(lines[i]).Unrecognized?
  }

  /** Line `i` is the first line the decoder does not recognise. */
  predicate FirstUnrecognized(lines: seq<String>, i: int) {
    && 0 <= i < |lines| && KindOf(lines[i]).Unrecognized?
    && forall j {:trigger KindOf(lines[j])} :: 0 <= j < i ==> !KindOf(lines[j]).Unrecognized?
  }

  /** The payloads of the `PREMISE|` lines, in order. */
  function PremisesIn(lines: seq<String>): seq<String>
  {
    if |lines| == 0 then []
    else
      PremisesIn(lines[..|lines| - 1])
      + (match KindOf(lines[|lines| - 1]) case PremiseLine(p) => [p] case _ => [])
  }

  /** The steps of the `STEP|` lines, in order. */
  function StepsIn(lines: seq<String>): seq<ProofStep>
  {
    if |lines| == 0 then []
    else
      StepsIn(lines[..|lines| - 1])
      + (match KindOf(lines[|lines| - 1]) case StepLine(s) => [s] case _ => [])
  }

  /** The payload of the last `CONCLUSION|` line, or `prior` when there is none. */
  function LastConclusion(lines: seq<String>, prior: Option<String>): Option<String>
  {
    if |lines| == 0 then prior
    else
      match KindOf(lines[|lines| - 1])
      case ConclusionLine(c) => Some(c)
      case _ => LastConclusion(lines[..|lines| - 1], prior)
  }

  /** One recognised line: the decoder absorbs it and moves on. */
  lemma ParseLinesCons(lines: seq<String>, acc: Accum)
    requires |lines| > 0 && !KindOf(lines[0]).Unrecognized?
    ensures ParseLines(lines, acc) == ParseLines(lines[1..], Absorb(KindOf(lines[0]), acc))
  {
  }

  /** A decoder that succeeds on a text succeeds on every prefix and recognises the line after it. */
  lemma ParseLinesOkPrefix(init: seq<String>, last: String, acc: Accum)
    requires ParseLines(init + [last], acc).Ok?
    ensures ParseLines(init, acc).Ok? && !KindOf(last).Unrecognized?
  {
    ParseLinesSnoc(init, last, acc);
  }

  /** A recognised line after a successful prefix is absorbed into what the prefix left. */
  lemma ParseSnocRecognized(init: seq<String>, last: String, acc: Accum, mid: Accum)
    requires ParseLines(init, acc) == Ok(mid) && !KindOf(last).Unrecognized?
    ensures ParseLines(init + [last], acc) == Ok(Absorb(KindOf(last), mid))
  {
    ParseLinesSnoc(init, last, acc);
  }

  /** Each of `lines` is a `PREMISE|` line, read as the premise at the same position of `ps`. */
  predicate PremiseBlock(lines: seq<String>, ps: seq<String>)
    decreases |lines|
  {
    && |lines| == |ps|
    && (|lines| > 0 ==>
          && KindOf(lines[|lines| - 1]) == PremiseLine(ps[|ps| - 1])
          && PremiseBlock(lines[..|lines| - 1], ps[..|ps| - 1]))
  }

  /** Each of `lines` is a `STEP|` line, read as the step at the same position of `ss`. */
  predicate StepBlock(lines: seq<String>, ss: seq<ProofStep>)
    decreases |lines|
  {
    && |lines| == |ss|
    && (|lines| > 0 ==>
          && KindOf(lines[|lines| - 1]) == StepLine(ss[|ss| - 1])
          && StepBlock(lines[..|lines| - 1], ss[..|ss| - 1]))
  }

  /** A block of `PREMISE|` lines appends its payloads to the premises, in order. */
  lemma {:induction false} ParsePremiseBlock(lines: seq<String>, ps: seq<String>, acc: Accum)
    requires PremiseBlock(lines, ps)
    ensures ParseLines(lines, acc) == Ok(acc.(premises := acc.premises + ps))
  {
    if |lines| == 0 {
      AppendEmpty(acc.premises);
    } else {
      var n := |lines| - 1;
      var init, last := lines[..n], lines[n];
      ParsePremiseBlock(init, ps[..n], acc);
      SnocParts(lines);
      ParseSnocRecognized(init, last, acc, acc.(premises := acc.premises + ps[..n]));
      AppendSnoc(acc.premises, ps);
    }
  }

  /** A block of `STEP|` lines appends their steps, in order. */
  lemma {:induction false} ParseStepBlock(lines: seq<String>, ss: seq<ProofStep>, acc: Accum)
    requires StepBlock(lines, ss)
    ensures ParseLines(lines, acc) == Ok(acc.(steps := acc.steps + ss))
  {
    if |lines| == 0 {
      AppendEmpty(acc.steps);
    } else {
      var n := |lines| - 1;
      var init, last := lines[..n], lines[n];
      ParseStepBlock(init, ss[..n], acc);
      SnocParts(lines);
      ParseSnocRecognized(init, last, acc, acc.(steps := acc.steps + ss[..n]));
      AppendSnoc(acc.steps, ss);
    }
  }

  /** Decoding two blocks of lines is decoding the first and then the second from where it left off. */
  lemma {:induction false} ParseLinesAppend(a: seq<String>, b: seq<String>, acc: Accum)
    ensures ParseLines(a + b, acc) ==
      match ParseLines(a, acc)
      case Err(m) => Err(m)
      case Ok(mid) => ParseLines(b, mid)
  {
    if |a| == 0 {
      assert a + b == b;
    } else {
      assert (a + b)[0] == a[0];
      assert (a + b)[1..] == a[1..] + b;
      var kind := KindOf(a[0]);
      if !kind.Unrecognized? {
        ParseLinesAppend(a[1..], b, Absorb(kind, acc));
      }
    }
  }

  /** Decoding one more line at the end. */
  lemma ParseLinesSnoc(init: seq<String>, last: String, acc: Accum)
    ensures ParseLines(init + [last], acc) ==
      match ParseLines(init, acc)
      case Err(m) => Err(m)
      case Ok(mid) =>
        if KindOf(last).Unrecognized? then Err(UnrecognizedMessage(Trim(last))) else Ok(Absorb(KindOf(last), mid))
  {
    ParseLinesAppend(init, [last], acc);
    assert [last][1..] == [];
  }

  /** The decoder succeeds exactly when every line is recognised. */
  lemma {:induction false} ParseLinesSucceeds(lines: seq<String>, acc: Accum)
    ensures ParseLines(lines, acc).Ok? <==> AllRecognized(lines)
  {
    if |lines| > 0 {
      var n := |lines| - 1;
      var init, last := lines[..n], lines[n];
      assert lines == init + [last];
      ParseLinesSnoc(init, last, acc);
      ParseLinesSucceeds(init, acc);
      AllRecognizedSnoc(lines);
    }
  }

  lemma AllRecognizedSnoc(lines: seq<String>)
    requires |lines| > 0
    ensures AllRecognized(lines) <==> AllRecognized(lines[..|lines| - 1]) && !KindOf(lines[|lines| - 1]).Unrecognized?
  {
    var n := |lines| - 1;
    assert forall i :: 0 <= i < n ==> lines[..n][i] == lines[i];
  }

  /**
   A successful decoder holds the last conclusion and all premises and steps
   in input order, none dropped or merged.
   */
  lemma {:induction false} ParseLinesSpec(lines: seq<String>, acc: Accum)
    requires ParseLines(lines, acc).Ok?
    ensures ParseLines(lines, acc).value
      == Accum(LastConclusion(lines, acc.conclusion), acc.premises + PremisesIn(lines), acc.steps + StepsIn(lines))
  {
    if |lines| > 0 {
      var n := |lines| - 1;
      var init, last := lines[..n], lines[n];
      SnocParts(lines);
      ParseLinesOkPrefix(init, last, acc);
      ParseLinesSpec(init, acc);
      var mid := ParseLines(init, acc).value;
      ParseSnocRecognized(init, last, acc, mid);
      AbsorbLast(init, last, acc);
    }
  }

  /** Absorbing one more recognised line extends the backward description by that line. */
  lemma AbsorbLast(init: seq<String>, last: String, acc: Accum)
    requires !KindOf(last).Unrecognized?
    ensures var lines := init + [last];
      Absorb(KindOf(last), Accum(LastConclusion(init, acc.conclusion), acc.premises + PremisesIn(init), acc.steps + StepsIn(init)))
      == Accum(LastConclusion(lines, acc.conclusion), acc.premises + PremisesIn(lines), acc.steps + StepsIn(lines))
  {
    var lines := init + [last];
    assert lines[..|lines| - 1] == init && lines[|lines| - 1] == last;
    match KindOf(last)
    case Skipped =>
      assert PremisesIn(lines) == PremisesIn(init) && StepsIn(lines) == StepsIn(init);
    case ConclusionLine(c) =>
      assert PremisesIn(lines) == PremisesIn(init) && StepsIn(lines) == StepsIn(init);
    case PremiseLine(p) =>
      assert PremisesIn(lines) == PremisesIn(init) + [p] && StepsIn(lines) == StepsIn(init);
      AppendAssoc(acc.premises, PremisesIn(init), [p]);
    case StepLine(st) =>
      assert PremisesIn(lines) == PremisesIn(init) && StepsIn(lines) == StepsIn(init) + [st];
      AppendAssoc(acc.steps, StepsIn(init), [st]);
  }

  /** A failing decoder reports the first line it does not recognise. */
  lemma {:induction false} ParseLinesError(lines: seq<String>, acc: Accum)
    requires ParseLines(lines, acc).Err?
    ensures exists i :: FirstUnrecognized(lines, i) && ParseLines(lines, acc).error == UnrecognizedMessage(Trim(lines[i]))
  {
    if KindOf(lines[0]).Unrecognized? {
      assert FirstUnrecognized(lines, 0);
    } else {
      var rest := lines[1..];
      var next := Absorb(KindOf(lines[0]), acc);
      ParseLinesCons(lines, acc);
      ParseLinesError(rest, next);
      var i :| FirstUnrecognized(rest, i) && ParseLines(rest, next).error == UnrecognizedMessage(Trim(rest[i]));
      FirstUnrecognizedShift(lines, i);
    }
  }

  lemma FirstUnrecognizedShift(lines: seq<String>, i: int)
    requires |lines| > 0 && !KindOf(lines[0]).Unrecognized? && FirstUnrecognized(lines[1..], i)
    ensures FirstUnrecognized(lines, i + 1) && lines[1..][i] == lines[i + 1]
  {
    var rest := lines[1..];
    forall j | 0 <= j < i + 1 ensures !KindOf(lines[j]).Unrecognized? {
      if j > 0 {
        assert lines[j] == rest[j - 1];
      }
    }
  }

  /**
   `readInputs` as a whole: a result exactly when every line is recognised
   and some line is a conclusion line, built from the last conclusion and the
   premises and steps in order; "Missing conclusion" exactly when every line
   is recognised and none is a conclusion line.
   */
  lemma ReadInputsSpec(text: String)
    ensures var lines := ReadLines(text);
      ReadInputs(text).Ok? <==> AllRecognized(lines) && LastConclusion(lines, None).Some?
    ensures var lines := ReadLines(text);
      ReadInputs(text).Ok? ==>
        ReadInputs(text).value == Inputs(LastConclusion(lines, None).value, PremisesIn(lines), StepsIn(lines))
    ensures var lines := ReadLines(text);
      ReadInputs(text) == Err(MissingConclusion) <==> AllRecognized(lines) && LastConclusion(lines, None).None?
  {
    var lines := ReadLines(text);
    ParseLinesSucceeds(lines, Start);
    if ParseLines(lines, Start).Ok? {
      ParseLinesSpec(lines, Start);
    } else {
      ParseLinesError(lines, Start);
      var i :| FirstUnrecognized(lines, i) && ParseLines(lines, Start).error == UnrecognizedMessage(Trim(lines[i]));
      assert UnrecognizedMessage(Trim(lines[i]))[0] == 'U';
      assert MissingConclusion[0] == 'M';
    }
  }

  /** A blank or `#` line can be inserted anywhere without changing the outcome. */
  lemma SkippedLineIsIgnored(lines: seq<String>, i: nat, skipped: String, acc: Accum)
    requires i <= |lines|
    requires KindOf(skipped).Skipped?
    ensures ParseLines(lines[..i] + [skipped] + lines[i..], acc) == ParseLines(lines, acc)
  {
    var a, b := lines[..i], lines[i..];
    assert lines == a + b;
    ParseLinesAppend(a + [skipped], b, acc);
    ParseLinesAppend(a, [skipped], acc);
    ParseLinesAppend(a, b, acc);
    assert [skipped][1..] == [];
  }

  /** Every component the decoder hands on is free of line breaks and unchanged by a trailing trim. */
  lemma DecodedComponentsIntact(text: String)
    requires ReadInputs(text).Ok?
    ensures var inputs := ReadInputs(text).value;
      && NoBreaks(inputs.conclusion) && SurvivesTrim(inputs.conclusion)
      && (forall k :: 0 <= k < |inputs.premises| ==> NoBreaks(inputs.premises[k]) && SurvivesTrim(inputs.premises[k]))
      && (forall j :: 0 <= j < |inputs.steps| ==>
            NoBreaks(inputs.steps[j].formula) && NoBreaks(inputs.steps[j].rule) && SurvivesTrim(inputs.steps[j].rule))
  {
    var lines := ReadLines(text);
    ReadInputsSpec(text);
    ConclusionIntact(lines, None);
    PremisesIntact(lines);
    StepsIntact(lines);
  }

  /** A tagged line is its own trim when the tag starts and ends above U+0020 and the payload survives trimming. */
  lemma TaggedLineTrimsToItself(tag: String, payload: String)
    requires |tag| > 0 && !IsTrimmed(tag[0]) && !IsTrimmed(tag[|tag| - 1])
    requires SurvivesTrim(payload)
    ensures Trim(tag + payload) == tag + payload
  {
    var t := tag + payload;
    assert t[0] == tag[0];
    assert t[|t| - 1] == if |payload| == 0 then tag[|tag| - 1] else payload[|payload| - 1];
    StripPadded([], t, [], IsTrimmed);
    assert [] + t + [] == t;
  }

  /** A later conclusion line overwrites whatever conclusion came before it. */
  lemma LaterConclusionWins(lines: seq<String>, c: String, acc: Accum)
    requires ParseLines(lines, acc).Ok?
    requires SurvivesTrim(c)
    ensures ParseLines(lines + [ConclusionTag + c], acc) == Ok(ParseLines(lines, acc).value.(conclusion := Some(c)))
  {
    TaggedLineTrimsToItself(ConclusionTag, c);
    ParseLinesSnoc(lines, ConclusionTag + c, acc);
    assert (ConclusionTag + c)[|ConclusionTag|..] == c;
  }

  /** What follows a tag on a trimmed, break-free line is break-free and survives trimming. */
  lemma TagPayloadIntact(line: String, k: nat)
    requires NoBreaks(line)
    requires k <= |Trim(line)|
    ensures NoBreaks(Trim(line)[k..]) && SurvivesTrim(Trim(line)[k..])
  {
    var t := Trim(line);
    var i := LeadingRun(line, IsTrimmed);
    assert forall j :: 0 <= j < |t| ==> t[j] == line[i + j];
    assert forall j :: 0 <= j < |t| - k ==> t[k..][j] == t[k + j];
  }

  lemma {:induction false} ConclusionIntact(lines: seq<String>, prior: Option<String>)
    requires forall k :: 0 <= k < |lines| ==> NoBreaks(lines[k])
    requires prior.Some? ==> NoBreaks(prior.value) && SurvivesTrim(prior.value)
    ensures var c := LastConclusion(lines, prior); c.Some? ==> NoBreaks(c.value) && SurvivesTrim(c.value)
  {
    if |lines| > 0 {
      var last := lines[|lines| - 1];
      var kind := KindOf(last);
      if kind.ConclusionLine? {
        TagPayloadIntact(last, |ConclusionTag|);
      } else {
        ConclusionIntact(lines[..|lines| - 1], prior);
      }
    }
  }

  lemma {:induction false} PremisesIntact(lines: seq<String>)
    requires forall k :: 0 <= k < |lines| ==> NoBreaks(lines[k])
    ensures forall k :: 0 <= k < |PremisesIn(lines)| ==> NoBreaks(PremisesIn(lines)[k]) && SurvivesTrim(PremisesIn(lines)[k])
  {
    if |lines| > 0 {
      var last := lines[|lines| - 1];
      PremisesIntact(lines[..|lines| - 1]);
      if KindOf(last).PremiseLine? {
        TagPayloadIntact(last, |PremiseTag|);
      }
    }
  }

  /** The outer parts of a break-free line that survives trimming are break-free, and the last one survives trimming. */
  lemma OuterPartsIntact(a: String, b: String, c: String)
    requires NoBreaks(a + b + c) && SurvivesTrim(a + b + c)
    ensures NoBreaks(a) && NoBreaks(c) && SurvivesTrim(c)
  {
    var whole := a + b + c;
    assert forall k :: 0 <= k < |a| ==> a[k] == whole[k];
    assert forall k :: 0 <= k < |c| ==> c[k] == whole[|a| + |b| + k];
  }

  /** The parts of a split payload are break-free, and the rule survives trimming, when the payload does. */
  lemma SplitStepIntact(payload: String)
    requires NoBreaks(payload) && SurvivesTrim(payload)
    ensures var s := SplitStep(payload); NoBreaks(s.formula) && NoBreaks(s.rule) && SurvivesTrim(s.rule)
  {
    var s := SplitStep(payload);
    if ContainsSeparator(payload) {
      OuterPartsIntact(s.formula, FieldSeparator, s.rule);
    }
  }

  lemma {:induction false} StepsIntact(lines: seq<String>)
    requires forall k :: 0 <= k < |lines| ==> NoBreaks(lines[k])
    ensures forall j :: 0 <= j < |StepsIn(lines)| ==>
      NoBreaks(StepsIn(lines)[j].formula) && NoBreaks(StepsIn(lines)[j].rule) && SurvivesTrim(StepsIn(lines)[j].rule)
  {
    if |lines| > 0 {
      var last := lines[|lines| - 1];
      StepsIntact(lines[..|lines| - 1]);
      if KindOf(last).StepLine? {
        TagPayloadIntact(last, |StepTag|);
        SplitStepIntact(Trim(last)[|StepTag|..]);
      }
    }
  }
}

=== FILE: wrappers.dfy ===
/** The failure-carrying values the model returns where the programs raise. */
module Wrappers {

  /** A value that may be absent (Java `null`, a missing dictionary key, a parse failure). */
  datatype Option<+T> = None | Some(value: T)

  /** Either a computed value or the error the program would raise instead. */
  datatype Result<+R, +E> = Ok(value: R) | Err(error: E)
}
